=== FILE: README.md ===
# A verified model of a small threaded HTTP/1.1 server

This project models the core of a small Rust web server. It covers the
`web-server` crate and the newer `web-server-rust` files it uses.
It models four things:

- the request-head parser `get_req`;
- the application object `App`, with its nine per-method route tables, its
  ordered middleware list and its optional fallback handler;
- the middleware loop and per-method dispatch of `handle_stream`;
- the response serialiser `HttpResponse` (`send_res_head`, `send`,
  `send_file`), together with the closed tables it prints: methods, status
  codes and MIME types, plus the error type.

Sockets, threads and locks are removed. What is left is sequential and
deterministic, so it is written as pure functions over immutable datatypes.

| file | module | models |
|---|---|---|
| `wrappers.dfy` | `Wrappers` | Rust's `Option` and `Result` |
| `text.dfy` | `Text` | the `str` primitives used: `char::is_whitespace`, `trim`, `split_whitespace`, `split_once`, decimal `Display` of an integer |
| `errors.dfy` | `Errors` | `web-server/src/error.rs` |
| `methods.dfy` | `Methods` | `web-server-rust/src/method.rs` |
| `statuses.dfy` | `Statuses` | `web-server/src/status.rs` |
| `mime.dfy` | `Mime` | `web-server-rust/src/mime.rs` |
| `request.dfy` | `Request` | `web-server/src/request.rs` |
| `response.dfy` | `Response` | `web-server-rust/src/response.rs` |
| `router.dfy` | `Router` | `web-server/src/app/mod.rs` |
| `server.dfy` | `Server` | `get_req` and `handle_stream` in `web-server/src/server/mod.rs` |

## How the model works

- **Input.** The input of one connection is the sequence of results that
  `BufRead::lines` yields. Each element is a `Line(text)` or a
  `ReadFailed(err)`. `Text.LinesOf` models how `BufRead::lines` cuts bytes
  into lines: at each `\n`, dropping a `\r` just before it.
- **Whitespace.** It is Rust's `char::is_whitespace`, the Unicode
  White_Space property, not ASCII alone.
- **Header order.** `send_res_head` iterates a `HashMap`, so its order is
  unspecified. The serialiser therefore takes that order as a parameter
  `order`, which is any duplicate-free enumeration of the header keys
  (`Response.Enumerates`). Every property is proved for every such order.
- **Write failures.** Every `writeln!(..)?` may fail. A failure is an
  optional `WriteFault(at, err)`: the write of chunk `at` fails with `err`,
  and nothing after it is written.
- **Handlers.** A route handler is an opaque id (`HandlerId`).
- **Middleware.** A middleware is a pure function from the request and
  response to `Pass(req, res)`, `Stop` or `Fail(err)`. These stand for
  `Ok(Some(..))`, `Ok(None)` and `Err(..)`.
- **Dispatch result.** Dispatch reports which handler would run:
  `Route(m, path, h)`, `Fallback(h)` or `NoHandler`.
- **Registration.** The nine registration functions generated by
  `insert_handler!` are one function, `Router.Register(app, m, path, h)`.
- **After `listen`.** `listen` takes the `App` by value. The model's
  `Router.Server` holds a snapshot of the app, and no operation registers
  anything on a `Server`.

## Notes on the source

- **No way to set the fallback.** `App` has no public setter for `unknown`:
  `App::new` sets it to `None` and nothing else in
  `web-server/src/app/mod.rs` writes it. The model keeps the field, and
  `Router.PublicAppNeverFallsBack` proves the consequence. An app built
  through the public API, with registrations and middleware in any order,
  never falls back, so an unmatched request runs no handler and gets no
  response.
- **Reading the tables.** `handle_stream` reads the route tables and the
  middleware list as plain maps and vectors, although `App` wraps them in
  `RwLock`. The model reads a plain snapshot, which is what the code
  evidently means.
- **Which response type.** `web-server/src/lib.rs` declares `mod response;`,
  which is the placeholder `web-server/src/response.rs`. That placeholder
  has only `new`. The calls a response must answer need more: the example
  handlers call `res.send(..)`, and sending reads the status, content type
  and header fields that the setters write. Only
  `web-server-rust/src/response.rs` has these members, and its `new` takes
  the `Arc<Mutex<_>>` stream handle that
  `handle_stream` passes (`web-server/src/server/mod.rs:46`). So that type
  is the one modelled.
- **Content-Length in `send`.** `send(v)` declares `Content-Length: |v|` but
  writes `v` followed by `"\n"`. One more byte is written than declared.
  This is modelled as written, and `Response.SendOverrunsContentLength`
  states it. `send_file` declares exactly the number of bytes it copies
  (`Response.SendFileMatchesContentLength`).
- **Parse failures.** `handle_stream` calls `unwrap` on the parse result, so
  a malformed request panics the worker thread. The model reports this as
  `Server.Rejected(error)`: nothing is dispatched and nothing is written.

## Model

| member | source | states |
|---|---|---|
| Text.Trim | web-server/src/server/mod.rs:164 | the trimmed line has no whitespace at either end, is no longer than the line, and is empty exactly when the whole line is whitespace |
| Text.TrimPadded | web-server/src/server/mod.rs:168 | trimming strips exactly the whitespace padding around a core that has no whitespace at either end |
| Text.TrimIdempotent | web-server/src/server/mod.rs:168 | trimming an already trimmed key or value changes nothing |
| Text.Tokens | web-server/src/server/mod.rs:156 | every whitespace token of the request line is non-empty and contains no whitespace |
| Text.TokensOfUnwords | web-server/src/server/mod.rs:156 | splitting on whitespace gives back exactly the words of a request line whose words are separated by single spaces |
| Text.TokensSkipWhitespace | web-server/src/server/mod.rs:156 | leading whitespace of any length and kind never produces a token |
| Text.TokensOfWordBefore | web-server/src/server/mod.rs:156 | a word ended by whitespace or by the end of the line is one whole token, followed by the tokens of the rest |
| Text.TokensOfJoin | web-server/src/server/mod.rs:156 | splitting on whitespace gives back exactly the words of a line, whatever non-empty runs of whitespace separate them and whatever whitespace surrounds them |
| Text.TokenOr | web-server/src/server/mod.rs:157-160 | the i-th token when there is one, and the empty string when the line has fewer tokens |
| Text.SplitOnce | web-server/src/server/mod.rs:167 | no split exactly when the separator is absent; otherwise the line is left part, separator, right part, and the left part has no separator |
| Text.SplitOnceAt | web-server/src/server/mod.rs:167 | the split happens at the first separator: any decomposition whose left part has no separator is the one returned |
| Text.LinesOf | web-server/src/server/mod.rs:151 | the lines `BufRead::lines` yields never contain a line feed |
| Text.LinesOfLine | web-server/src/server/mod.rs:162 | a line written with a CR LF terminator is read back as exactly that line, followed by the lines of whatever comes after |
| Text.NatToString | web-server-rust/src/response.rs:60 | the printed length is a non-empty string of decimal digits with no leading zero |
| Text.ParseNatToString | web-server-rust/src/response.rs:60 | reading the printed Content-Length back as a decimal gives the length |
| Text.NatToStringInjective | web-server-rust/src/response.rs:60 | different lengths never print the same |
| Errors.FromIo | web-server/src/error.rs:22-26 | an I/O error converts to StdError wrapping that same error, which displays as the error's own message |
| Errors.DisplayProtocolErrors | web-server/src/error.rs:11-20 | InvalidMethod, InvalidHttpVersion and BadRequest display as "Invalid Method", "Invalid Http Version" and "Bad Request", and the three texts differ |
| Methods.Parse | web-server-rust/src/method.rs:20-33 | a string parses to a method exactly when it is that method's literal; every other string is rejected with InvalidMethod |
| Methods.ParseRoundTrip | web-server-rust/src/method.rs:22-30 | parsing yields a variant exactly for that variant's uppercase literal |
| Methods.ParseRejects | web-server-rust/src/method.rs:31 | the empty string, "get", "Get" and "FETCH" are all rejected with InvalidMethod, so parsing is case-sensitive |
| Methods.LiteralInjective | web-server-rust/src/method.rs:20-33 | no two methods share a literal, so each variant comes from exactly one string |
| Statuses.Default | web-server/src/status.rs:10-11 | the default status has code 200 and displays as "200 OK" |
| Statuses.Code | web-server/src/status.rs:70-136 | every code lies in 100..511, and the code determines the status (the reverse lookup by code gives it back) |
| Statuses.CodeInjective | web-server/src/status.rs:70-136 | no two statuses share a code |
| Statuses.DisplayIsCodeThenReason | web-server/src/status.rs:70-204 | every display text is the status's own code in decimal, a space, then a non-empty reason phrase, so the code table and the display table agree |
| Statuses.SpotValues | web-server/src/status.rs:112-180 | I'm a teapot is 418 and displays "418 I'm a teapot"; Not Found is 404 and displays "404 Not Found" |
| Mime.Default | web-server-rust/src/mime.rs:6-7 | the default MIME type displays as "text/html" |
| Mime.DisplayIsTypeSlashSubtype | web-server-rust/src/mime.rs:15-27 | every display text splits at its one '/' into a non-empty type and a non-empty subtype with no further '/' |
| Mime.DisplayInjective | web-server-rust/src/mime.rs:17-25 | different MIME types display differently |
| Mime.JpegSpelling | web-server-rust/src/mime.rs:20 | ImageJpg displays as "image/jpeg", not "image/jpg" |
| Request.New | web-server/src/request.rs:34-48 | method, path, version and header map are stored exactly as given |
| Request.InsertHeader | web-server/src/request.rs:50-52 | after inserting, the key maps to the new value; every other key, the method, the path and the version are unchanged |
| Request.HeaderViewsAgree | web-server/src/request.rs:19-56 | `get_headers` and `Deref` expose the same header map |
| Request.InsertHeaderLastWins | web-server/src/request.rs:50-52 | inserting one key twice is the same as inserting only the later value |
| Request.InsertHeaderCommutes | web-server/src/request.rs:50-52 | inserts of two different keys can be done in either order |
| Response.New | web-server-rust/src/response.rs:19-38 | a new response has status 200 "200 OK", content type "text/html" and no headers |
| Response.SetStatus | web-server-rust/src/response.rs:43-46 | sets the status and leaves content type and headers unchanged |
| Response.SetContentType | web-server-rust/src/response.rs:47-50 | sets the content type and leaves status and headers unchanged |
| Response.InsertHeader | web-server-rust/src/response.rs:51-54 | the key maps to the value, the key set grows by that key only, other keys keep their values, and status and content type are unchanged |
| Response.SettersLastWins | web-server-rust/src/response.rs:43-54 | for each setter, two calls are the same as the later call alone |
| Response.WriteAll | web-server-rust/src/response.rs:55-67 | with no fault every chunk is written in order and the result is Ok; a fault at chunk k writes exactly chunks 0..k-1 and returns that fault's error |
| Response.WriteAllPrefix | web-server-rust/src/response.rs:55-73 | whatever a failing send leaves on the wire is a prefix of what a successful send writes |
| Response.Send | web-server-rust/src/response.rs:68-73 | without a fault, the head with Content-Length equal to the body length, then the body, then a newline; any error is the write fault's error |
| Response.SendHello | web-server-rust/src/response.rs:55-73 | sending "hello" on a fresh response writes exactly "HTTP/1.1 200 OK\r\nContent-Length: 5\r\nContent-Type: text/html\r\n\r\nhello\n" |
| Response.SendOverrunsContentLength | web-server-rust/src/response.rs:68-73 | the declared Content-Length reads back as the body length, but the bytes after the head are the body plus one newline |
| Response.SendFile | web-server-rust/src/response.rs:74-82 | an opened file is sent as the head with its length, then its contents; an error is either the open or metadata error or a write fault |
| Response.SendFileMatchesContentLength | web-server-rust/src/response.rs:74-82 | for a file, the declared Content-Length reads back as exactly the number of bytes that follow the head |
| Response.SendFileFailsBeforeHead | web-server-rust/src/response.rs:75-77 | if the file cannot be opened or its metadata read, nothing at all is written and that error is returned |
| Response.FieldLinesOnePerHeader | web-server-rust/src/response.rs:62-64 | the head carries exactly one field line per custom header, for every iteration order of the map |
| Router.New | web-server/src/app/mod.rs:116-130 | a new app has all nine route tables empty, no middleware and no fallback |
| Router.Register | web-server/src/app/mod.rs:12-27 | registering inserts into that method's table only, overwriting the path; the other eight tables, the middleware and the fallback are unchanged |
| Router.UseMiddleware | web-server/src/app/mod.rs:131-146 | the middleware is appended last, earlier middleware keep their order, and route tables and fallback are unchanged |
| Router.Resolve | web-server/src/server/mod.rs:61-143 | a route exactly when the path is in the request method's table, with that table's handler; else the fallback exactly when one is set; else no handler |
| Router.ResolveAfterRegister | web-server/src/app/mod.rs:147-155 | after registering (m, path, h), that method and path resolve to h, and every other method and path resolve as before |
| Router.ResolveIgnoresMiddleware | web-server/src/app/mod.rs:145 | adding middleware never changes where a request is dispatched |
| Router.RegisterAllLastWins | web-server/src/app/mod.rs:25 | after any sequence of registrations, (m, path) resolves to the handler registered last for it, and to no handler if none was |
| Router.RegisterAllKeepsFallback | web-server/src/app/mod.rs:25 | registrations never change the middleware list or the fallback |
| Router.UseAllKeepsTables | web-server/src/app/mod.rs:145 | adding middleware never changes a route table or the fallback, and the list grows by exactly the added middleware, in order |
| Router.BuildInOrder | web-server/src/app/mod.rs:12-27 | any interleaving of registrations and `use_middleware` calls builds the same app as all the registrations first and then all the middleware, each kind in its own program order |
| Router.PublicAppRoutes | web-server/src/app/mod.rs:116-155 | an app built from `new` by any interleaving of registrations and middleware routes each method and path to the handler registered last for it, or to no handler, and runs its middleware in the order they were added |
| Router.PublicAppNeverFallsBack | web-server/src/app/mod.rs:116-155 | an app built only with `new`, registrations and middleware, in any order, never dispatches to a fallback |
| Router.Listen | web-server/src/app/mod.rs:156-167 | the server resolves every method and path exactly as the app did and runs the same middleware |
| Server.IsBlankIffTrimEmpty | web-server/src/server/mod.rs:164 | a line ends the header block exactly when it is empty after trimming |
| Server.Field | web-server/src/server/mod.rs:167-169 | a line without a colon is skipped; otherwise its key and value are trimmed and the key has no colon |
| Server.FieldSplitsAtFirstColon | web-server/src/server/mod.rs:167-168 | a header line splits at its first colon, later colons stay in the value, and both sides are trimmed |
| Server.ReadHeaders | web-server/src/server/mod.rs:161-170 | the header loop only fails with StdError, carrying the error of a line read that failed |
| Server.ReadHeadersStopsAtBlank | web-server/src/server/mod.rs:162-166 | reading stops at the first blank line, and nothing after it becomes a header or causes an error |
| Server.ReadHeadersReadError | web-server/src/server/mod.rs:163 | a failed read before the blank line fails parsing with that I/O error |
| Server.ReadHeadersSkipsColonless | web-server/src/server/mod.rs:167-169 | a non-blank line without a colon is skipped and reading continues |
| Server.ReadHeadersLastWins | web-server/src/server/mod.rs:168 | a header block yields exactly the keys some line carries, each with the value of its last line |
| Server.DuplicateHeaderLastWins | web-server/src/server/mod.rs:168 | two lines with the same name keep the second value |
| Server.DuplicateHeaderExample | web-server/src/server/mod.rs:168 | "A: 1", "A: 2", blank gives exactly {A: 2} |
| Server.ParseRequest | web-server/src/server/mod.rs:146-172 | BadRequest exactly when there is no first line; InvalidHttpVersion never; on success the first line was read, the method's literal, the path and the version are its first three tokens (empty when missing), and the headers are what the header loop read from the following lines |
| Server.ParseRequestLine | web-server/src/server/mod.rs:151-171 | for a request line of words separated by any runs of whitespace and padded by any whitespace: with the header lines read, the request has the first word's method and the second and third words verbatim as path and version (empty when missing; later words ignored); if the header loop fails, parsing fails with its error |
| Server.ParseBareRequest | web-server/src/server/mod.rs:151-171 | a three-word request line followed at once by the blank line parses to a request with that method, path and version and no headers |
| Server.ParseRequestInvalidMethod | web-server/src/server/mod.rs:157-158 | an unknown or missing method token fails with InvalidMethod, whatever the header lines are |
| Server.ParseRequestFirstLineFails | web-server/src/server/mod.rs:151-155 | a read error on the first line is reported as StdError of that error |
| Server.FieldOfFieldText | web-server/src/server/mod.rs:167-168 | a field line as the response writes it is read back as its own key and value |
| Server.ResponseHeadersReadBack | web-server/src/server/mod.rs:161-170 | the custom header lines a response writes, received as lines with CR LF stripped, in any iteration order and followed by the blank line, are parsed back to exactly the response's header map, when no key or value has surrounding whitespace or a line feed and no key has a colon |
| Server.ReceivedAreWrittenLines | web-server-rust/src/response.rs:62-64 | the lines read back are the written field lines without their line terminator |
| Server.ReceivedFromWire | web-server-rust/src/response.rs:62-64 | the bytes of the custom header lines, split by `BufRead::lines`, are one line per header, then the lines of whatever follows, provided no key or value holds a line feed |
| Server.WrittenHeadersReadBack | web-server/src/server/mod.rs:161-170 | the bytes of the custom header lines and the blank line a response writes, split by `BufRead::lines` and read by the header loop, give back exactly the response's header map, for any iteration order, when no key or value has surrounding whitespace or a line feed and no key has a colon |
| Server.RunMiddleware | web-server/src/server/mod.rs:47-60 | the loop over the middleware computes the chain outcome: each Pass hands its pair on, the first Stop or Fail ends the chain |
| Server.RunChainAppend | web-server/src/server/mod.rs:47-60 | running two lists back to back is running their concatenation; after a Stop or Fail nothing more runs |
| Server.UseMiddlewareRunsLast | web-server/src/server/mod.rs:47-60 | a newly added middleware sees exactly the pair the earlier ones produced, and runs only if they all passed |
| Server.HandleStream | web-server/src/server/mod.rs:39-145 | the connection is rejected exactly when parsing fails, with the parse error; otherwise the middleware chain, run on the parsed request and a fresh response, decides: a completed chain dispatches its final request and response to where the router resolves that request's method and path, a Stop ends the connection, and a Fail aborts it with the middleware's error |
| Server.HandleWithoutMiddleware | web-server/src/server/mod.rs:47-143 | with an empty middleware list, a parsed request is dispatched where the router resolves its method and path, with a fresh response |
| Server.HandleRegisteredRoute | web-server/src/server/mod.rs:45-143 | with no middleware, any request that parses, whatever its header lines and request-line whitespace, for a method and path that was registered dispatches to the handler registered last for it, with the parsed request and a fresh response |
| Server.HandleInvalidMethod | web-server/src/server/mod.rs:45 | an unknown method rejects the connection before any middleware or handler runs |
| Server.HandleChainCutShort | web-server/src/server/mod.rs:53-58 | if a middleware stops or fails, no handler is dispatched |

## Left out

- The accept loop, `thread::spawn` and per-connection threads
  (`web-server/src/server/mod.rs:21-37`). So are the `TcpListener` bind and
  the address callback in `listen` (`web-server/src/app/mod.rs:161-162`).
  These are network I/O and concurrency.
- `Arc`, `Mutex` and `RwLock`, and the stream cloning in `handle_stream`.
  Tables, requests and responses are plain immutable values.
- The request's reader handle and both `get_inner` functions. They only
  hand back the stream.
- The input of `get_req` is given as lines. `Text.LinesOf` models how
  `BufRead::lines` produces them from bytes, and is used to read back the
  header lines a response writes. A read failure in the middle of a line
  is a `ReadFailed` element, not a split of the bytes.
- UTF-8. Strings are sequences of characters, and a length counts
  characters, while Rust's `len()` counts bytes. The two agree for ASCII
  bodies.
- Server.HandleStream: the bodies of route handlers and the fallback are
  not modelled, and neither is the error a handler may return
  (`f(req, res)?`). The model stops at naming the handler that runs.
- Server.WrittenHeadersReadBack: the round trip is stated only for header
  maps that satisfy `WireSafe`. For other maps the trip does change the
  map: surrounding whitespace is trimmed, a key with a colon splits at it,
  and a line feed cuts the line in two.
- Server.ResponseHeadersReadBack: the same `WireSafe` condition.
- Response.SendFile: the file system is a parameter (`FileSource`: open
  failed, metadata failed, or the file's contents). The metadata length is
  taken to be the length of the contents. The chunked `io::copy` is one
  write.
- Response.WriteAll: a failing write writes nothing of its own chunk. A
  real partial write, and `BufWriter` buffering and flushing, are not
  modelled.
- `send` and `send_file` take the response by value, so a response is sent
  at most once. That is a property of Rust ownership and has no
  counterpart among immutable values.
- `impl Default for App`, which is `App::new` (`Router.New`).
- `web-server/src/response.rs`, the placeholder response type that
  `web-server/src/lib.rs` declares. It cannot answer the server's calls
  (see "Which response type").
- `web-server/src/main.rs`, `web-server/src/lib.rs` and
  `web-server-rust/examples/hello-world/src/main.rs`, which are wiring and
  an example.

=== FILE: errors.dfy ===
/** The server's error type (web-server/src/error.rs). */
module Errors {

  /** An `std::io::Error`, known to the model only by the text its `Display`
      prints; where it comes from (socket, file system) is outside the model. */
  datatype IoError = IoError(message: string)

  /** `HttpError`: the three protocol errors plus a wrapped I/O error. */
  datatype HttpError =
    | InvalidMethod
    | InvalidHttpVersion
    | BadRequest
    | StdError(err: IoError)

  /** The `Display` implementation. */
  function Display(e: HttpError): string {
    match e
    case InvalidMethod => "Invalid Method"
    case InvalidHttpVersion => "Invalid Http Version"
    case BadRequest => "Bad Request"
    case StdError(err) => err.message
  }

  /** `From<io::Error>`: the conversion `?` applies to an I/O failure. It
      wraps the very same error, so the message a log line prints is the
      I/O error's own. */
  function FromIo(err: IoError): (e: HttpError)
    ensures e.StdError? && e.err == err
    ensures Display(e) == err.message
  {
    StdError(err)
  }

  /** The three protocol errors print distinct fixed texts. */
  lemma DisplayProtocolErrors()
    ensures Display(InvalidMethod) == "Invalid Method"
    ensures Display(InvalidHttpVersion) == "Invalid Http Version"
    ensures Display(BadRequest) == "Bad Request"
    ensures Display(InvalidMethod) != Display(InvalidHttpVersion)
    ensures Display(InvalidMethod) != Display(BadRequest)
    ensures Display(InvalidHttpVersion) != Display(BadRequest)
  {
  }
}

=== FILE: methods.dfy ===
/** Request methods (web-server-rust/src/method.rs): the nine method tokens
    of section 9 of RFC 9110 and their case-sensitive parser. */
module Methods {
  import opened Wrappers
  import opened Errors

  datatype Method = Connect | Delete | Get | Head | Options | Patch | Post | Put | Trace

  /** The exact upper-case token each variant is spelled as on the wire. */
  function Literal(m: Method): string {
    match m
    case Connect => "CONNECT"
    case Delete => "DELETE"
    case Get => "GET"
    case Head => "HEAD"
    case Options => "OPTIONS"
    case Patch => "PATCH"
    case Post => "POST"
    case Put => "PUT"
    case Trace => "TRACE"
  }

  /** `FromStr for Method`. A token parses exactly when it is one of the
      nine literals, to the variant spelled that way; everything else,
      including the empty token and lower-case spellings, is
      `InvalidMethod`. */
  function Parse(s: string): (r: Result<Method, HttpError>)
    ensures r.Ok? ==> Literal(r.value) == s
    ensures r.Err? ==> r.error == InvalidMethod
    ensures forall m :: Literal(m) == s ==> r == Ok(m)
  {
    if s == "CONNECT" then Ok(Connect)
    else if s == "DELETE" then Ok(Delete)
    else if s == "GET" then Ok(Get)
    else if s == "HEAD" then Ok(Head)
    else if s == "OPTIONS" then Ok(Options)
    else if s == "PATCH" then Ok(Patch)
    else if s == "POST" then Ok(Post)
    else if s == "PUT" then Ok(Put)
    else if s == "TRACE" then Ok(Trace)
    else Err(InvalidMethod)
  }

  /** Every variant is produced by exactly one string: its literal. */
  lemma ParseRoundTrip(m: Method, s: string)
    ensures Parse(s) == Ok(m) <==> s == Literal(m)
  {
  }

  /** Spelling is case-sensitive and the empty token is not a method. */
  lemma ParseRejects()
    ensures Parse("") == Err(InvalidMethod)
    ensures Parse("get") == Err(InvalidMethod)
    ensures Parse("Get") == Err(InvalidMethod)
    ensures Parse("FETCH") == Err(InvalidMethod)
  {
  }

  /** Distinct variants have distinct literals. */
  lemma LiteralInjective(a: Method, b: Method)
    ensures Literal(a) == Literal(b) ==> a == b
  {
  }
}

=== FILE: mime.dfy ===
/** Media types a response can declare (web-server-rust/src/mime.rs), in
    the `type "/" subtype` form of section 8.3.1 of RFC 9110. */
module Mime {
  import opened Wrappers
  import Text

  datatype MimeType = TextPlain | TextHtml | ImageJpg | ImagePng | VideoMp4 | ApplicationJson | ApplicationPdf

  /** `#[default]`: a fresh response declares `text/html`. */
  function Default(): (m: MimeType)
    ensures Display(m) == "text/html"
  {
    TextHtml
  }

  /** `Display`: the media-type string written after `Content-Type: `.
      The JPEG variant is spelled `image/jpeg`, not `image/jpg`. */
  function Display(m: MimeType): string {
    match m
    case TextPlain => "text/plain"
    case TextHtml => "text/html"
    case ImageJpg => "image/jpeg"
    case ImagePng => "image/png"
    case VideoMp4 => "video/mp4"
    case ApplicationJson => "application/json"
    case ApplicationPdf => "application/pdf"
  }

  /** The JPEG variant's spelling. */
  lemma JpegSpelling()
    ensures Display(ImageJpg) == "image/jpeg" && Display(ImageJpg) != "image/jpg"
  {
  }

  /** The top-level type and subtype of each variant, as an independent
      table. */
  function Parts(m: MimeType): (string, string) {
    match m
    case TextPlain => ("text", "plain")
    case TextHtml => ("text", "html")
    case ImageJpg => ("image", "jpeg")
    case ImagePng => ("image", "png")
    case VideoMp4 => ("video", "mp4")
    case ApplicationJson => ("application", "json")
    case ApplicationPdf => ("application", "pdf")
  }

  /** Every display string has exactly one `/`, with non-empty text on
      both sides: splitting at the first `/` yields the variant's type and
      subtype, and the subtype holds no further `/`. */
  lemma {:induction false} DisplayIsTypeSlashSubtype(m: MimeType)
    ensures Text.SplitOnce(Display(m), '/') == Some(Parts(m))
    ensures |Parts(m).0| > 0 && |Parts(m).1| > 0 && '/' !in Parts(m).1
  {
    match m
    case TextPlain =>
      assert "text" + ['/'] + "plain" == "text/plain";
      Text.SplitOnceAt("text", "plain", '/');
    case TextHtml =>
      assert "text" + ['/'] + "html" == "text/html";
      Text.SplitOnceAt("text", "html", '/');
    case ImageJpg =>
      assert "image" + ['/'] + "jpeg" == "image/jpeg";
      Text.SplitOnceAt("image", "jpeg", '/');
    case ImagePng =>
      assert "image" + ['/'] + "png" == "image/png";
      Text.SplitOnceAt("image", "png", '/');
    case VideoMp4 =>
      assert "video" + ['/'] + "mp4" == "video/mp4";
      Text.SplitOnceAt("video", "mp4", '/');
    case ApplicationJson =>
      assert "application" + ['/'] + "json" == "application/json";
      Text.SplitOnceAt("application", "json", '/');
    case ApplicationPdf =>
      assert "application" + ['/'] + "pdf" == "application/pdf";
      Text.SplitOnceAt("application", "pdf", '/');
  }

  /** Distinct variants display differently. */
  lemma DisplayInjective(a: MimeType, b: MimeType)
    ensures Display(a) == Display(b) ==> a == b
  {
  }
}

=== FILE: request.dfy ===
/** A parsed request (web-server/src/request.rs): method, target path,
    version text and header map. The input-stream handle the source keeps
    for a future body read is not modelled; nothing in the core reads it. */
module Request {
  import opened Wrappers
  import opened Methods

  type Headers = map<string, string>

  datatype HttpRequest = HttpRequest(httpMethod: Method, path: string, version: string, header: Headers)

  /** `HttpRequest::new`: stores its arguments as given. */
  function New(httpMethod: Method, path: string, version: string, header: Headers): (r: HttpRequest)
    ensures r.httpMethod == httpMethod && r.path == path && r.version == version
    ensures GetHeaders(r) == header
  {
    HttpRequest(httpMethod, path, version, header)
  }

  /** `get_headers`: the header map. */
  function GetHeaders(r: HttpRequest): Headers {
    r.header
  }

  /** `Deref<Target = HashMap>`: the same header map again. */
  function Deref(r: HttpRequest): Headers {
    r.header
  }

  /** Header lookup through the `Deref` view (`req.get(key)`). */
  function Lookup(r: HttpRequest, key: string): Option<string> {
    if key in Deref(r) then Some(Deref(r)[key]) else None
  }

  /** `insert_header`: insert or overwrite one key. Afterwards the key
      looks up to the new value; every other key, and method, path and
      version, are unchanged. */
  function InsertHeader(r: HttpRequest, key: string, value: string): (out: HttpRequest)
    ensures Lookup(out, key) == Some(value)
    ensures forall k :: k != key ==> Lookup(out, k) == Lookup(r, k)
    ensures out.httpMethod == r.httpMethod && out.path == r.path && out.version == r.version
  {
    r.(header := r.header[key := value])
  }

  /** Both accessors expose one and the same map. */
  lemma HeaderViewsAgree(r: HttpRequest)
    ensures GetHeaders(r) == Deref(r)
  {
  }

  /** Inserting the same key twice keeps only the later value. */
  lemma InsertHeaderLastWins(r: HttpRequest, key: string, v1: string, v2: string)
    ensures InsertHeader(InsertHeader(r, key, v1), key, v2) == InsertHeader(r, key, v2)
  {
  }

  /** Insertions under distinct keys commute. */
  lemma InsertHeaderCommutes(r: HttpRequest, k1: string, v1: string, k2: string, v2: string)
    requires k1 != k2
    ensures InsertHeader(InsertHeader(r, k1, v1), k2, v2) == InsertHeader(InsertHeader(r, k2, v2), k1, v1)
  {
  }
}

=== FILE: response.dfy ===
/** The response side (web-server-rust/src/response.rs): status, content
    type and custom headers, and the bytes `send` and `send_file` push into
    the connection's writer.

    The writer is modelled by what it receives. Each `writeln!` is one chunk;
    any of them may fail, which `?` turns into an early return. A run is
    described by an optional `WriteFault`: the index of the first chunk whose
    write fails, and the error it fails with. The HashMap iteration order of
    the custom headers is not fixed by the source, so it is a parameter
    `order` that lists every header key exactly once. */
module Response {
  import opened Wrappers
  import opened Text
  import opened Errors
  import Request
  import Statuses
  import Mime

  datatype HttpResponse = HttpResponse(status: Statuses.Status, contentType: Mime.MimeType, header: Request.Headers)

  /** `HttpResponse::new` and `From<Arc<Mutex<W>>>` build the same value:
      status `200 OK`, content type `text/html`, no custom headers. */
  function New(): (r: HttpResponse)
    ensures Statuses.Code(r.status) == 200 && Statuses.Display(r.status) == "200 OK"
    ensures Mime.Display(r.contentType) == "text/html"
    ensures |r.header| == 0
  {
    HttpResponse(Statuses.Default(), Mime.Default(), map[])
  }

  /** `status`: replaces the status and nothing else. */
  function SetStatus(r: HttpResponse, s: Statuses.Status): (out: HttpResponse)
    ensures out.status == s
    ensures out.contentType == r.contentType && out.header == r.header
  {
    r.(status := s)
  }

  /** `content_type`: replaces the content type and nothing else. */
  function SetContentType(r: HttpResponse, t: Mime.MimeType): (out: HttpResponse)
    ensures out.contentType == t
    ensures out.status == r.status && out.header == r.header
  {
    r.(contentType := t)
  }

  /** `insert_header`: insert or overwrite one key; other keys keep their
      values and status and content type are untouched. */
  function InsertHeader(r: HttpResponse, key: string, value: string): (out: HttpResponse)
    ensures key in out.header && out.header[key] == value
    ensures out.header.Keys == r.header.Keys + {key}
    ensures forall k :: k in r.header && k != key ==> out.header[k] == r.header[k]
    ensures out.status == r.status && out.contentType == r.contentType
  {
    r.(header := r.header[key := value])
  }

  /** Repeated setter calls: the last one wins. */
  lemma SettersLastWins(r: HttpResponse, s1: Statuses.Status, s2: Statuses.Status,
                        t1: Mime.MimeType, t2: Mime.MimeType, k: string, v1: string, v2: string)
    ensures SetStatus(SetStatus(r, s1), s2) == SetStatus(r, s2)
    ensures SetContentType(SetContentType(r, t1), t2) == SetContentType(r, t2)
    ensures InsertHeader(InsertHeader(r, k, v1), k, v2) == InsertHeader(r, k, v2)
  {
  }

  // ---------------------------------------------------------------------
  // The wire form of the head
  // ---------------------------------------------------------------------

  const HttpVersion: string := "HTTP/1.1"

  /** What one `writeln!(w, "{…}\r")` call emits: the text, then CR LF. */
  function WriteLine(text: string): string {
    text + "\r\n"
  }

  /** The text of one custom header line, `key: value`. */
  function FieldText(key: string, value: string): string {
    key + ": " + value
  }

  /** `order` lists every key of `h` exactly once: one possible iteration
      order of the header map. */
  predicate Enumerates(order: seq<string>, h: Request.Headers) {
    && (forall i :: 0 <= i < |order| ==> order[i] in h)
    && (forall k :: k in h ==> k in order)
    && (forall i, j :: 0 <= i < j < |order| ==> order[i] != order[j])
  }

  /** The custom header lines, in iteration order. */
  function FieldLines(h: Request.Headers, order: seq<string>): seq<string>
    requires forall i :: 0 <= i < |order| ==> order[i] in h
  {
    seq(|order|, i requires 0 <= i < |order| => WriteLine(FieldText(order[i], h[order[i]])))
  }

  /** The chunks `send_res_head(len)` writes, one per `writeln!`: status line,
      `Content-Length`, `Content-Type`, the custom headers, a blank line. */
  function HeadChunks(r: HttpResponse, len: nat, order: seq<string>): seq<string>
    requires Enumerates(order, r.header)
  {
    [ WriteLine(HttpVersion + " " + Statuses.Display(r.status)),
      WriteLine("Content-Length: " + NatToString(len)),
      WriteLine("Content-Type: " + Mime.Display(r.contentType)) ]
    + FieldLines(r.header, order)
    + [WriteLine("")]
  }

  function Concat(chunks: seq<string>): string {
    if |chunks| == 0 then "" else chunks[0] + Concat(chunks[1..])
  }

  lemma {:induction false} ConcatAppend(a: seq<string>, b: seq<string>)
    ensures Concat(a + b) == Concat(a) + Concat(b)
    decreases |a|
  {
    if |a| == 0 {
      assert a + b == b;
    } else {
      assert (a + b)[1..] == a[1..] + b;
      ConcatAppend(a[1..], b);
    }
  }

  /** The full head as one string. */
  function Head(r: HttpResponse, len: nat, order: seq<string>): string
    requires Enumerates(order, r.header)
  {
    Concat(HeadChunks(r, len, order))
  }

  // ---------------------------------------------------------------------
  // Writing
  // ---------------------------------------------------------------------

  /** The first failing write: chunk number `at` fails with `err`. */
  datatype WriteFault = WriteFault(at: nat, err: IoError)

  /** What reached the writer, and what the sending call returned. */
  datatype Sent = Sent(written: string, result: Result<(), IoError>)

  /** A sequence of `writeln!(…)?` calls, chunk by chunk: every chunk before
      the failing one arrives, the failing one and all later ones do not,
      and the call returns the failure. */
  function WriteAll(chunks: seq<string>, fault: Option<WriteFault>): (o: Sent)
    ensures (fault.None? || fault.value.at >= |chunks|) ==> o == Sent(Concat(chunks), Ok(()))
    ensures fault.Some? && fault.value.at < |chunks| ==>
              o == Sent(Concat(chunks[..fault.value.at]), Err(fault.value.err))
    decreases |chunks|
  {
    if |chunks| == 0 then Sent("", Ok(()))
    else if fault.Some? && fault.value.at == 0 then Sent("", Err(fault.value.err))
    else
      var later := if fault.Some? then Some(WriteFault(fault.value.at - 1, fault.value.err)) else None;
      var rest := WriteAll(chunks[1..], later);
      assert fault.Some? && fault.value.at < |chunks| ==>
               chunks[..fault.value.at][1..] == chunks[1..][..fault.value.at - 1];
      Sent(chunks[0] + rest.written, rest.result)
  }

  /** `send(value)`: the head declaring `Content-Length: |value|`, then
      `value` and a newline. */
  function Send(r: HttpResponse, value: string, order: seq<string>, fault: Option<WriteFault>): (o: Sent)
    requires Enumerates(order, r.header)
    ensures fault.None? ==> o == Sent(Head(r, |value|, order) + value + "\n", Ok(()))
    ensures o.result.Err? ==> fault.Some? && o.result.error == fault.value.err
  {
    var chunks := HeadChunks(r, |value|, order) + [value + "\n"];
    ConcatAppend(HeadChunks(r, |value|, order), [value + "\n"]);
    WriteAll(chunks, fault)
  }

  /** What opening the file and reading its metadata produced. */
  datatype FileSource = OpenFailed(err: IoError) | MetadataFailed(err: IoError) | Opened(contents: string)

  /** `send_file(path)`: open, read the length, write the head, then copy
      the file. The copy is modelled as one write of the whole contents. */
  function SendFile(r: HttpResponse, file: FileSource, order: seq<string>, fault: Option<WriteFault>): (o: Sent)
    requires Enumerates(order, r.header)
    ensures file.Opened? && fault.None? ==> o == Sent(Head(r, |file.contents|, order) + file.contents, Ok(()))
    ensures o.result.Err? ==> (!file.Opened? && o.result.error == file.err) || fault.Some?
  {
    match file
    case OpenFailed(e) => Sent("", Err(e))
    case MetadataFailed(e) => Sent("", Err(e))
    case Opened(contents) =>
      var chunks := HeadChunks(r, |contents|, order) + [contents];
      ConcatAppend(HeadChunks(r, |contents|, order), [contents]);
      WriteAll(chunks, fault)
  }

  // ---------------------------------------------------------------------
  // Properties of the wire output
  // ---------------------------------------------------------------------

  lemma FreshHeadChunks()
    ensures HeadChunks(New(), 5, [])
         == ["HTTP/1.1 200 OK\r\n", "Content-Length: 5\r\n", "Content-Type: text/html\r\n", "\r\n"]
  {
    var r := New();
    assert NatToString(5) == "5";
    assert FieldLines(r.header, []) == [];
    assert WriteLine(HttpVersion + " " + "200 OK") == "HTTP/1.1 200 OK\r\n";
    assert WriteLine("Content-Length: " + "5") == "Content-Length: 5\r\n";
    assert WriteLine("Content-Type: " + "text/html") == "Content-Type: text/html\r\n";
    assert WriteLine("") == "\r\n";
  }

  lemma ConcatFour(a: string, b: string, c: string, d: string)
    ensures Concat([a, b, c, d]) == a + b + c + d
  {
    assert [a, b, c, d][1..] == [b, c, d];
    assert [b, c, d][1..] == [c, d];
    assert [c, d][1..] == [d];
    assert [d][1..] == [];
    assert Concat([d]) == d + "" == d;
    assert Concat([c, d]) == c + d;
    assert Concat([b, c, d]) == b + (c + d) == b + c + d;
  }

  /** A fresh response sending `hello`. */
  lemma SendHello()
    ensures Send(New(), "hello", [], None)
         == Sent("HTTP/1.1 200 OK\r\n" + "Content-Length: 5\r\n" + "Content-Type: text/html\r\n" + "\r\n" + "hello\n", Ok(()))
  {
    var a, b, c, d := "HTTP/1.1 200 OK\r\n", "Content-Length: 5\r\n", "Content-Type: text/html\r\n", "\r\n";
    assert |"hello"| == 5;
    FreshHeadChunks();
    ConcatFour(a, b, c, d);
    assert Head(New(), 5, []) == a + b + c + d;
  }

  /** `send` writes one byte more than its `Content-Length` line declares:
      the declared number reads back as `|value|`, but `value` and a newline
      follow the head. */
  lemma SendOverrunsContentLength(r: HttpResponse, value: string, order: seq<string>)
    requires Enumerates(order, r.header)
    ensures HeadChunks(r, |value|, order)[1] == WriteLine("Content-Length: " + NatToString(|value|))
    ensures ParseDigits(NatToString(|value|)) == |value|
    ensures var o := Send(r, value, order, None);
            var h := Head(r, |value|, order);
            |o.written| == |h| + |value| + 1 && o.written[..|h|] == h && o.written[|h|..] == value + "\n"
  {
    ParseNatToString(|value|);
  }

  /** `send_file` declares exactly the number of bytes it then copies. */
  lemma SendFileMatchesContentLength(r: HttpResponse, contents: string, order: seq<string>)
    requires Enumerates(order, r.header)
    ensures ParseDigits(NatToString(|contents|)) == |contents|
    ensures var o := SendFile(r, Opened(contents), order, None);
            var h := Head(r, |contents|, order);
            |o.written| == |h| + |contents| && o.written[|h|..] == contents
  {
    ParseNatToString(|contents|);
  }

  /** When the file cannot be opened or its metadata cannot be read,
      `send_file` fails before a single byte of the head is written, and no
      later write fault can change that. */
  lemma SendFileFailsBeforeHead(r: HttpResponse, file: FileSource, order: seq<string>, fault: Option<WriteFault>)
    requires Enumerates(order, r.header)
    requires !file.Opened?
    ensures SendFile(r, file, order, fault) == Sent("", Err(file.err))
  {
  }

  /** A failing write leaves on the wire a prefix of what a successful
      `send` would have written. */
  lemma {:induction false} WriteAllPrefix(chunks: seq<string>, fault: Option<WriteFault>)
    ensures var o := WriteAll(chunks, fault);
            |o.written| <= |Concat(chunks)| && o.written == Concat(chunks)[..|o.written|]
  {
    if fault.Some? && fault.value.at < |chunks| {
      var k := fault.value.at;
      assert chunks == chunks[..k] + chunks[k..];
      ConcatAppend(chunks[..k], chunks[k..]);
    }
  }

  lemma {:induction false} DistinctCard(order: seq<string>)
    requires forall i, j :: 0 <= i < j < |order| ==> order[i] != order[j]
    ensures |set i | 0 <= i < |order| :: order[i]| == |order|
    decreases |order|
  {
    if |order| > 0 {
      var last := order[|order| - 1];
      var init := order[..|order| - 1];
      DistinctCard(init);
      var s := set i | 0 <= i < |order| :: order[i];
      var s' := set i | 0 <= i < |init| :: init[i];
      assert s == s' + {last} by {
        forall x | x in s ensures x in s' + {last} {
          var i :| 0 <= i < |order| && order[i] == x;
          if i < |init| { assert init[i] == x; }
        }
      }
      assert last !in s';
    }
  }

  /** The custom header lines: one per header, each header exactly once. */
  lemma FieldLinesOnePerHeader(h: Request.Headers, order: seq<string>)
    requires Enumerates(order, h)
    ensures |FieldLines(h, order)| == |h|
    ensures forall k :: k in h ==> exists i :: 0 <= i < |order| && order[i] == k
                                     && FieldLines(h, order)[i] == WriteLine(FieldText(k, h[k]))
    ensures forall i, j :: 0 <= i < j < |order| ==> order[i] != order[j]
  {
    DistinctCard(order);
    var s := set i | 0 <= i < |order| :: order[i];
    assert s == h.Keys by {
      forall k | k in h ensures k in s {
        var i :| 0 <= i < |order| && order[i] == k;
      }
    }
    forall k | k in h
      ensures exists i :: 0 <= i < |order| && order[i] == k
                          && FieldLines(h, order)[i] == WriteLine(FieldText(k, h[k]))
    {
      var i :| 0 <= i < |order| && order[i] == k;
      assert FieldLines(h, order)[i] == WriteLine(FieldText(k, h[k]));
    }
  }
}

=== FILE: router.dfy ===
/** Route registration (web-server/src/app/mod.rs): nine per-method tables
    from an exact path to a handler, an ordered middleware list, and an
    optional fallback handler, plus the lookup `handle_stream` performs on
    them (web-server/src/server/mod.rs).

    Handlers are opaque: a `HandlerId` names one registered closure, and
    dispatch answers WHICH handler runs. Middleware is a pure function from
    the request/response pair to its outcome. */
module Router {
  import opened Wrappers
  import opened Errors
  import opened Methods
  import opened Request
  import opened Response

  type HandlerId = nat

  type Table = map<string, HandlerId>

  /** What one middleware returned: `Ok(Some((req, res)))`, `Ok(None)` or
      `Err(err)`. */
  datatype MiddlewareOutcome = Pass(req: HttpRequest, res: HttpResponse) | Stop | Fail(err: IoError)

  type Middleware = (HttpRequest, HttpResponse) -> MiddlewareOutcome

  datatype App = App(
    middleware: seq<Middleware>,
    connect: Table, get: Table, post: Table, delete: Table, head: Table,
    put: Table, patch: Table, trace: Table, options: Table,
    unknown: Option<HandlerId>)

  /** The route table consulted for requests with method `m`. */
  function TableFor(app: App, m: Method): Table {
    match m
    case Connect => app.connect
    case Get => app.get
    case Post => app.post
    case Delete => app.delete
    case Head => app.head
    case Put => app.put
    case Patch => app.patch
    case Trace => app.trace
    case Options => app.options
  }

  /** `App::new`: no routes under any method, no middleware, no fallback. */
  function New(): (app: App)
    ensures forall m :: TableFor(app, m) == map[]
    ensures app.middleware == [] && app.unknown == None
  {
    App([], map[], map[], map[], map[], map[], map[], map[], map[], map[], None)
  }

  /** The registration functions generated by `insert_handler!` (`connect`,
      `get`, …, `options`), selected by method: the table for `m` maps
      `path` to `h` afterwards, every other entry of every table is as
      before, and middleware and fallback are untouched. */
  function Register(app: App, m: Method, path: string, h: HandlerId): (out: App)
    ensures forall m' :: TableFor(out, m') == if m' == m then TableFor(app, m)[path := h] else TableFor(app, m')
    ensures out.middleware == app.middleware && out.unknown == app.unknown
  {
    match m
    case Connect => app.(connect := app.connect[path := h])
    case Get => app.(get := app.get[path := h])
    case Post => app.(post := app.post[path := h])
    case Delete => app.(delete := app.delete[path := h])
    case Head => app.(head := app.head[path := h])
    case Put => app.(put := app.put[path := h])
    case Patch => app.(patch := app.patch[path := h])
    case Trace => app.(trace := app.trace[path := h])
    case Options => app.(options := app.options[path := h])
  }

  /** `use_middleware`: append at the end. Earlier middleware keeps its
      relative order; the route tables and the fallback are untouched. */
  function UseMiddleware(app: App, f: Middleware): (out: App)
    ensures |out.middleware| == |app.middleware| + 1
    ensures out.middleware[..|app.middleware|] == app.middleware
    ensures out.middleware[|app.middleware|] == f
    ensures forall m :: TableFor(out, m) == TableFor(app, m)
    ensures out.unknown == app.unknown
  {
    app.(middleware := app.middleware + [f])
  }

  // ---------------------------------------------------------------------
  // Dispatch
  // ---------------------------------------------------------------------

  /** Which handler `handle_stream` runs once the middleware chain has
      completed. */
  datatype Target = Route(m: Method, path: string, handler: HandlerId) | Fallback(handler: HandlerId) | NoHandler

  /** Exact lookup of the request path in the request method's table; the
      fallback when that misses and one is set; otherwise nothing. */
  function Resolve(app: App, m: Method, path: string): (t: Target)
    ensures t.Route? <==> path in TableFor(app, m)
    ensures t.Route? ==> t.m == m && t.path == path && t.handler == TableFor(app, m)[path]
    ensures t.Fallback? <==> path !in TableFor(app, m) && app.unknown.Some?
    ensures t.Fallback? ==> app.unknown == Some(t.handler)
  {
    var table := TableFor(app, m);
    if path in table then Route(m, path, table[path])
    else if app.unknown.Some? then Fallback(app.unknown.value)
    else NoHandler
  }

  /** After registering `(m, path, h)` a request for exactly that method and
      path dispatches to `h`; every other (method, path) dispatches as
      before. */
  lemma ResolveAfterRegister(app: App, m: Method, path: string, h: HandlerId, m': Method, path': string)
    ensures Resolve(Register(app, m, path, h), m', path')
         == if m' == m && path' == path then Route(m, path, h) else Resolve(app, m', path')
  {
  }

  /** Registering a middleware never changes where a request is
      dispatched. */
  lemma ResolveIgnoresMiddleware(app: App, f: Middleware, m: Method, path: string)
    ensures Resolve(UseMiddleware(app, f), m, path) == Resolve(app, m, path)
  {
  }

  // ---------------------------------------------------------------------
  // Sequences of registrations
  // ---------------------------------------------------------------------

  datatype Registration = Registration(m: Method, path: string, handler: HandlerId)

  /** Registrations applied in program order. */
  function RegisterAll(app: App, regs: seq<Registration>): App
    decreases |regs|
  {
    if |regs| == 0 then app
    else RegisterAll(Register(app, regs[0].m, regs[0].path, regs[0].handler), regs[1..])
  }

  /** Reference answer: the handler of the LAST registration for `(m, path)`,
      found by scanning from the end. */
  function LastRegistered(regs: seq<Registration>, m: Method, path: string): Option<HandlerId>
    decreases |regs|
  {
    if |regs| == 0 then None
    else
      var r := regs[|regs| - 1];
      if r.m == m && r.path == path then Some(r.handler)
      else LastRegistered(regs[..|regs| - 1], m, path)
  }

  lemma {:induction false} RegisterAllSnoc(app: App, regs: seq<Registration>, r: Registration)
    ensures RegisterAll(app, regs + [r]) == Register(RegisterAll(app, regs), r.m, r.path, r.handler)
    decreases |regs|
  {
    if |regs| == 0 {
      assert regs + [r] == [r];
    } else {
      assert (regs + [r])[1..] == regs[1..] + [r];
      RegisterAllSnoc(Register(app, regs[0].m, regs[0].path, regs[0].handler), regs[1..], r);
    }
  }

  /** Registering the same path twice under one method keeps the later
      handler: a fresh app with registrations `regs` routes `(m, path)` to
      the last handler registered for it, and to nothing if none was. */
  lemma {:induction false} RegisterAllLastWins(regs: seq<Registration>, m: Method, path: string)
    ensures var app := RegisterAll(New(), regs);
            match LastRegistered(regs, m, path)
            case Some(h) => Resolve(app, m, path) == Route(m, path, h)
            case None => Resolve(app, m, path) == NoHandler
    decreases |regs|
  {
    if |regs| > 0 {
      var init := regs[..|regs| - 1];
      var r := regs[|regs| - 1];
      assert regs == init + [r];
      RegisterAllSnoc(New(), init, r);
      var before := RegisterAll(New(), init);
      assert RegisterAll(New(), regs) == Register(before, r.m, r.path, r.handler);
      ResolveAfterRegister(before, r.m, r.path, r.handler, m, path);
      if !(r.m == m && r.path == path) {
        assert LastRegistered(regs, m, path) == LastRegistered(init, m, path);
        RegisterAllLastWins(init, m, path);
      }
    }
  }

  lemma {:induction false} RegisterAllKeepsFallback(app: App, regs: seq<Registration>)
    ensures RegisterAll(app, regs).unknown == app.unknown
    ensures RegisterAll(app, regs).middleware == app.middleware
    decreases |regs|
  {
    if |regs| > 0 {
      RegisterAllKeepsFallback(Register(app, regs[0].m, regs[0].path, regs[0].handler), regs[1..]);
    }
  }

  /** Middleware registrations applied in program order. */
  function UseAll(app: App, mws: seq<Middleware>): App
    decreases |mws|
  {
    if |mws| == 0 then app else UseAll(UseMiddleware(app, mws[0]), mws[1..])
  }

  lemma {:induction false} UseAllKeepsTables(app: App, mws: seq<Middleware>)
    ensures forall m :: TableFor(UseAll(app, mws), m) == TableFor(app, m)
    ensures UseAll(app, mws).unknown == app.unknown
    ensures UseAll(app, mws).middleware == app.middleware + mws
    decreases |mws|
  {
    if |mws| > 0 {
      UseAllKeepsTables(UseMiddleware(app, mws[0]), mws[1..]);
      assert app.middleware + [mws[0]] + mws[1..] == app.middleware + mws;
    }
  }

  // ---------------------------------------------------------------------
  // Building an app through the public API
  // ---------------------------------------------------------------------

  /** One call on the app, in program order: a route registration or
      `use_middleware`. */
  datatype Step = Reg(r: Registration) | Use(f: Middleware)

  /** The app after the calls `steps`, registrations and middleware in any
      interleaving. */
  function Build(app: App, steps: seq<Step>): App
    decreases |steps|
  {
    if |steps| == 0 then app
    else match steps[0]
      case Reg(r) => Build(Register(app, r.m, r.path, r.handler), steps[1..])
      case Use(f) => Build(UseMiddleware(app, f), steps[1..])
  }

  /** The registrations among `steps`, in order. */
  function RegistrationsOf(steps: seq<Step>): seq<Registration>
    decreases |steps|
  {
    if |steps| == 0 then []
    else match steps[0]
      case Reg(r) => [r] + RegistrationsOf(steps[1..])
      case Use(_) => RegistrationsOf(steps[1..])
  }

  /** The middleware among `steps`, in order. */
  function MiddlewareOf(steps: seq<Step>): seq<Middleware>
    decreases |steps|
  {
    if |steps| == 0 then []
    else match steps[0]
      case Reg(_) => MiddlewareOf(steps[1..])
      case Use(f) => [f] + MiddlewareOf(steps[1..])
  }

  /** A registration and a `use_middleware` touch different parts of the
      app, so their order does not matter. */
  lemma RegisterUseCommute(app: App, m: Method, path: string, h: HandlerId, f: Middleware)
    ensures UseMiddleware(Register(app, m, path, h), f) == Register(UseMiddleware(app, f), m, path, h)
  {
  }

  lemma {:induction false} RegisterAllUseCommute(app: App, regs: seq<Registration>, f: Middleware)
    ensures RegisterAll(UseMiddleware(app, f), regs) == UseMiddleware(RegisterAll(app, regs), f)
    decreases |regs|
  {
    if |regs| > 0 {
      var r := regs[0];
      RegisterUseCommute(app, r.m, r.path, r.handler, f);
      RegisterAllUseCommute(Register(app, r.m, r.path, r.handler), regs[1..], f);
    }
  }

  /** Any interleaving of registrations and middleware builds the same app
      as doing all the registrations first and then all the middleware,
      each kind in its own program order. */
  lemma {:induction false} BuildInOrder(app: App, steps: seq<Step>)
    ensures Build(app, steps) == UseAll(RegisterAll(app, RegistrationsOf(steps)), MiddlewareOf(steps))
    decreases |steps|
  {
    if |steps| > 0 {
      var rest := steps[1..];
      match steps[0]
      case Reg(r) =>
        BuildInOrder(Register(app, r.m, r.path, r.handler), rest);
        assert ([r] + RegistrationsOf(rest))[1..] == RegistrationsOf(rest);
      case Use(f) =>
        BuildInOrder(UseMiddleware(app, f), rest);
        RegisterAllUseCommute(app, RegistrationsOf(rest), f);
        assert ([f] + MiddlewareOf(rest))[1..] == MiddlewareOf(rest);
    }
  }

  /** The public API offers no way to set the fallback: an app built from
      `App::new` by registrations and middleware alone, in any order, never
      falls back, so an unmatched request runs nothing. */
  lemma PublicAppNeverFallsBack(steps: seq<Step>, m: Method, path: string)
    ensures var app := Build(New(), steps);
            Resolve(app, m, path).Route? || Resolve(app, m, path) == NoHandler
  {
    PublicAppRoutes(steps, m, path);
  }

  /** An app built from `App::new` by any interleaving of registrations and
      middleware routes each request to the handler registered last for its
      method and path, or to nothing, and runs its middleware in the order
      they were added. */
  lemma PublicAppRoutes(steps: seq<Step>, m: Method, path: string)
    ensures var app := Build(New(), steps);
            && app.middleware == MiddlewareOf(steps)
            && match LastRegistered(RegistrationsOf(steps), m, path)
               case Some(h) => Resolve(app, m, path) == Route(m, path, h)
               case None => Resolve(app, m, path) == NoHandler
  {
    var regs := RegistrationsOf(steps);
    BuildInOrder(New(), steps);
    RegisterAllKeepsFallback(New(), regs);
    RegisterAllLastWins(regs, m, path);
    UseAllKeepsTables(RegisterAll(New(), regs), MiddlewareOf(steps));
  }

  // ---------------------------------------------------------------------
  // Serving
  // ---------------------------------------------------------------------

  /** The server `listen` starts: it owns the app from then on. */
  datatype Server = Server(handler: App)

  /** `listen`, after a successful bind: the app is moved into the server as
      it stands, every route, middleware and the fallback included. */
  function Listen(app: App): (s: Server)
    ensures forall m, p :: Resolve(s.handler, m, p) == Resolve(app, m, p)
    ensures s.handler.middleware == app.middleware
  {
    Server(app)
  }
}

=== FILE: server.dfy ===
/** Connection handling (web-server/src/server/mod.rs): `get_req` reads the
    request head, `handle_stream` runs the middleware chain and dispatches
    to at most one handler.

    Input arrives as the lines `BufRead::lines` yields, line terminators
    already stripped (`Text.LinesOf` says how bytes become those lines);
    each read either produces a line or fails with an I/O error. */
module Server {
  import opened Wrappers
  import opened Text
  import opened Errors
  import opened Methods
  import Request
  import Response
  import opened Router

  /** One item of `BufRead::lines`. */
  datatype LineRead = Line(text: string) | ReadFailed(err: IoError)

  /** Lines read without error. */
  function Lines(ls: seq<string>): (rs: seq<LineRead>)
    ensures |rs| == |ls| && forall i :: 0 <= i < |ls| ==> rs[i] == Line(ls[i])
  {
    seq(|ls|, i requires 0 <= i < |ls| => Line(ls[i]))
  }

  /** The line that ends the head: nothing but whitespace. */
  predicate IsBlank(line: string) {
    AllWhitespace(line)
  }

  /** `line.trim().is_empty()` is exactly `IsBlank(line)`. */
  lemma IsBlankIffTrimEmpty(line: string)
    ensures IsBlank(line) <==> Trim(line) == ""
  {
  }

  // ---------------------------------------------------------------------
  // Header lines
  // ---------------------------------------------------------------------

  /** The `(key, value)` one header line contributes: split at the first
      colon, both sides trimmed. A line without a colon contributes
      nothing. */
  function Field(line: string): (f: Option<(string, string)>)
    ensures f.None? <==> ':' !in line
    ensures f.Some? ==> Trimmed(f.value.0) && Trimmed(f.value.1) && ':' !in f.value.0
  {
    match SplitOnce(line, ':')
    case None => None
    case Some(kv) =>
      TrimAvoids(kv.0, ':');
      Some((Trim(kv.0), Trim(kv.1)))
  }

  /** The header map after one more line has been folded in. */
  function Apply(acc: Request.Headers, line: string): Request.Headers {
    match Field(line)
    case None => acc
    case Some(kv) => acc[kv.0 := kv.1]
  }

  /** The header loop of `get_req`: stop at the first blank line (or at the
      end of input), fail on a read error, otherwise fold each line in. */
  function ReadHeaders(input: seq<LineRead>, acc: Request.Headers): (r: Result<Request.Headers, HttpError>)
    ensures r.Err? ==> r.error.StdError? && exists i :: 0 <= i < |input| && input[i] == ReadFailed(r.error.err)
    decreases |input|
  {
    if |input| == 0 then Ok(acc)
    else match input[0]
      case ReadFailed(e) => Err(FromIo(e))
      case Line(t) =>
        if IsBlank(t) then Ok(acc) else ReadHeaders(input[1..], Apply(acc, t))
  }

  /** Header lines beyond the first blank line are never read. */
  lemma {:induction false} ReadHeadersStopsAtBlank(ls: seq<string>, blank: string, rest: seq<LineRead>, acc: Request.Headers)
    requires forall i :: 0 <= i < |ls| ==> !IsBlank(ls[i])
    requires IsBlank(blank)
    ensures ReadHeaders(Lines(ls) + [Line(blank)] + rest, acc) == ReadHeaders(Lines(ls), acc)
    decreases |ls|
  {
    var input := Lines(ls) + [Line(blank)] + rest;
    if |ls| > 0 {
      assert input[0] == Line(ls[0]);
      assert input[1..] == Lines(ls[1..]) + [Line(blank)] + rest;
      assert Lines(ls)[1..] == Lines(ls[1..]);
      ReadHeadersStopsAtBlank(ls[1..], blank, rest, Apply(acc, ls[0]));
    } else {
      assert input[0] == Line(blank);
    }
  }

  /** A read error inside the header block fails the whole parse with that
      error. */
  lemma {:induction false} ReadHeadersReadError(ls: seq<string>, e: IoError, rest: seq<LineRead>, acc: Request.Headers)
    requires forall i :: 0 <= i < |ls| ==> !IsBlank(ls[i])
    ensures ReadHeaders(Lines(ls) + [ReadFailed(e)] + rest, acc) == Err(StdError(e))
    decreases |ls|
  {
    var input := Lines(ls) + [ReadFailed(e)] + rest;
    if |ls| > 0 {
      assert input[0] == Line(ls[0]);
      assert input[1..] == Lines(ls[1..]) + [ReadFailed(e)] + rest;
      ReadHeadersReadError(ls[1..], e, rest, Apply(acc, ls[0]));
    } else {
      assert input[0] == ReadFailed(e);
    }
  }

  lemma {:induction false} ReadHeadersSnoc(ls: seq<string>, l: string, acc: Request.Headers)
    requires forall i :: 0 <= i < |ls| ==> !IsBlank(ls[i])
    requires !IsBlank(l)
    ensures ReadHeaders(Lines(ls), acc).Ok?
    ensures ReadHeaders(Lines(ls + [l]), acc) == Ok(Apply(ReadHeaders(Lines(ls), acc).value, l))
    decreases |ls|
  {
    if |ls| == 0 {
      assert Lines([l])[1..] == [];
    } else {
      assert Lines(ls)[1..] == Lines(ls[1..]);
      assert Lines(ls + [l])[1..] == Lines(ls[1..] + [l]);
      assert (ls + [l])[0] == ls[0];
      ReadHeadersSnoc(ls[1..], l, Apply(acc, ls[0]));
    }
  }

  /** Reference answer for one key: the value of the LAST line carrying that
      key, found by scanning backwards. */
  function LastValue(ls: seq<string>, k: string): Option<string>
    decreases |ls|
  {
    if |ls| == 0 then None
    else
      var f := Field(ls[|ls| - 1]);
      if f.Some? && f.value.0 == k then Some(f.value.1) else LastValue(ls[..|ls| - 1], k)
  }

  /** For duplicate header names the last occurrence wins: a header block
      of non-blank lines yields exactly the keys some line carries, each
      with the value of its last line. */
  lemma {:induction false} ReadHeadersLastWins(ls: seq<string>, k: string)
    requires forall i :: 0 <= i < |ls| ==> !IsBlank(ls[i])
    ensures var r := ReadHeaders(Lines(ls), map[]);
            r.Ok? && (k in r.value <==> LastValue(ls, k).Some?)
            && (k in r.value ==> r.value[k] == LastValue(ls, k).value)
    decreases |ls|
  {
    if |ls| == 0 {
    } else {
      var init := ls[..|ls| - 1];
      var l := ls[|ls| - 1];
      assert ls == init + [l];
      ReadHeadersSnoc(init, l, map[]);
      ReadHeadersLastWins(init, k);
    }
  }

  // ---------------------------------------------------------------------
  // The request head
  // ---------------------------------------------------------------------

  /** `get_req`. No first line is a bad request; a failed read is an I/O
      error; the request line's first three whitespace tokens are method,
      path and version, missing ones empty and later ones ignored. The
      method is checked before any header is read; the version never is. */
  function ParseRequest(input: seq<LineRead>): (r: Result<Request.HttpRequest, HttpError>)
    ensures r == Err(BadRequest) <==> |input| == 0
    ensures r.Err? ==> r.error != InvalidHttpVersion
    ensures r.Ok? ==> input[0].Line?
    ensures r.Ok? && input[0].Line? ==>
              var ts := Tokens(input[0].text);
              && Literal(r.value.httpMethod) == TokenOr(ts, 0)
              && r.value.path == TokenOr(ts, 1)
              && r.value.version == TokenOr(ts, 2)
              && ReadHeaders(input[1..], map[]) == Ok(r.value.header)
  {
    if |input| == 0 then Err(BadRequest)
    else match input[0]
      case ReadFailed(e) => Err(FromIo(e))
      case Line(first) =>
        var ts := Tokens(first);
        var m :- Methods.Parse(TokenOr(ts, 0));
        var header :- ReadHeaders(input[1..], map[]);
        Ok(Request.New(m, TokenOr(ts, 1), TokenOr(ts, 2), header))
  }

  lemma LiteralIsWord(m: Method)
    ensures IsWord(Literal(m))
  {
  }

  /** A request line of words separated by any runs of whitespace, with any
      whitespace around them: the first word is the method, the next two are
      stored verbatim as path and version (empty when absent), anything
      after the third is ignored, and the header lines decide the rest. */
  lemma {:induction false} ParseRequestLine(m: Method, ws: seq<string>, seps: seq<string>, rest: seq<LineRead>)
    requires |ws| >= 1 && ws[0] == Literal(m)
    requires forall i :: 0 <= i < |ws| ==> IsWord(ws[i])
    requires |seps| == |ws| + 1 && Separates(seps)
    ensures ParseRequest([Line(Join(ws, seps))] + rest)
         == match ReadHeaders(rest, map[])
            case Ok(header) => Ok(Request.New(m, TokenOr(ws, 1), TokenOr(ws, 2), header))
            case Err(e) => Err(e)
  {
    TokensOfJoin(ws, seps);
    ParseRoundTrip(m, Literal(m));
    assert ([Line(Join(ws, seps))] + rest)[1..] == rest;
  }

  /** An unknown or missing method token rejects the request with
      `InvalidMethod` before the header lines are looked at. */
  lemma ParseRequestInvalidMethod(first: string, rest: seq<LineRead>)
    requires forall m :: Literal(m) != TokenOr(Tokens(first), 0)
    ensures ParseRequest([Line(first)] + rest) == Err(InvalidMethod)
  {
  }

  /** A read error on the first line is reported as that I/O error. */
  lemma ParseRequestFirstLineFails(e: IoError, rest: seq<LineRead>)
    ensures ParseRequest([ReadFailed(e)] + rest) == Err(StdError(e))
  {
  }

  // ---------------------------------------------------------------------
  // Field lines written by a response, read back by the parser
  // ---------------------------------------------------------------------

  /** A header line splits at its FIRST colon: later colons stay in the
      value, and both sides lose their surrounding whitespace. */
  lemma {:induction false} FieldSplitsAtFirstColon(a: string, b: string)
    requires ':' !in a
    ensures Field(a + [':'] + b) == Some((Trim(a), Trim(b)))
  {
    SplitOnceAt(a, b, ':');
  }

  /** A non-blank line without a colon is skipped; reading goes on with
      the next line and the headers so far. */
  lemma ReadHeadersSkipsColonless(l: string, rest: seq<LineRead>, acc: Request.Headers)
    requires !IsBlank(l) && ':' !in l
    ensures ReadHeaders([Line(l)] + rest, acc) == ReadHeaders(rest, acc)
  {
    assert ([Line(l)] + rest)[1..] == rest;
  }

  /** Each custom header line of `HttpResponse` parses back to its own key
      and value, when neither has surrounding whitespace and the key has no
      colon. */
  lemma {:induction false} FieldOfFieldText(k: string, v: string)
    requires Trimmed(k) && Trimmed(v) && ':' !in k
    ensures Field(Response.FieldText(k, v)) == Some((k, v))
    ensures !IsBlank(Response.FieldText(k, v))
  {
    assert Response.FieldText(k, v) == k + [':'] + (" " + v);
    FieldSplitsAtFirstColon(k, " " + v);
    TrimOfTrimmed(k);
    TrimOfSpaced(v);
    FieldTextNotBlank(k, v);
  }

  /** A field line always holds its colon, so it never ends the head. */
  lemma FieldTextNotBlank(k: string, v: string)
    ensures !IsBlank(Response.FieldText(k, v))
  {
    assert Response.FieldText(k, v)[|k|] == ':';
  }

  /** Folding in one `key: value` line sets exactly that key. */
  lemma {:induction false} ApplyFieldText(acc: Request.Headers, k: string, v: string)
    requires Trimmed(k) && Trimmed(v) && ':' !in k
    ensures Apply(acc, Response.FieldText(k, v)) == acc[k := v]
  {
    FieldOfFieldText(k, v);
  }

  /** Two lines for the same header: the second value replaces the
      first. */
  lemma DuplicateHeaderLastWins(k: string, v1: string, v2: string)
    requires Trimmed(k) && ':' !in k && Trimmed(v1) && Trimmed(v2)
    ensures ReadHeaders([Line(Response.FieldText(k, v1)), Line(Response.FieldText(k, v2)), Line("")], map[])
         == Ok(map[k := v2])
  {
    var l1, l2 := Response.FieldText(k, v1), Response.FieldText(k, v2);
    assert [Line(l1), Line(l2), Line("")] == [Line(l1)] + ([Line(l2)] + [Line("")]);
    ReadHeadersFieldLine(k, v1, [Line(l2)] + [Line("")], map[]);
    ReadHeadersFieldLine(k, v2, [Line("")], map[k := v1]);
    ReadHeadersBlankLine([Line("")], map[k := v1][k := v2]);
    MapOverride(k, v1, v2);
  }

  /** A blank first line ends the header block at once. */
  lemma ReadHeadersBlankLine(input: seq<LineRead>, acc: Request.Headers)
    requires |input| > 0 && input[0].Line? && IsBlank(input[0].text)
    ensures ReadHeaders(input, acc) == Ok(acc)
  {
  }

  lemma MapOverride(k: string, v1: string, v2: string)
    ensures map[k := v1][k := v2] == map[k := v2]
  {
  }

  /** `A: 1` then `A: 2` leaves `A` as `2`. */
  lemma {:induction false} DuplicateHeaderExample()
    ensures ReadHeaders([Line("A: 1"), Line("A: 2"), Line("")], map[]) == Ok(map["A" := "2"])
  {
    assert Response.FieldText("A", "1") == "A: 1" && Response.FieldText("A", "2") == "A: 2";
    DuplicateHeaderLastWins("A", "1", "2");
  }

  /** What a reader receives for the custom header chunks `send_res_head`
      writes: one line per header, CR LF stripped. `ReceivedFromWire` shows
      this is what `BufRead::lines` yields for those bytes when no key or
      value holds a line feed. */
  function ReceivedFieldLines(h: Request.Headers, order: seq<string>): (rs: seq<LineRead>)
    requires forall i :: 0 <= i < |order| ==> order[i] in h
    ensures |rs| == |order|
    decreases |order|
  {
    if |order| == 0 then []
    else [Line(Response.FieldText(order[0], h[order[0]]))] + ReceivedFieldLines(h, order[1..])
  }

  /** No key or value holds a line feed, so each header is written as one
      line. */
  predicate NoLineFeeds(h: Request.Headers) {
    forall k :: k in h ==> '\n' !in k && '\n' !in h[k]
  }

  /** Keys and values the header syntax can carry unchanged: no
      surrounding whitespace, no colon in a key, no line feed anywhere. */
  predicate WireSafe(h: Request.Headers) {
    && NoLineFeeds(h)
    && forall k :: k in h ==> Trimmed(k) && ':' !in k && Trimmed(h[k])
  }

  /** The part of `h` whose keys occur in `keys`. */
  function Restrict(h: Request.Headers, keys: seq<string>): Request.Headers {
    map k | k in h && k in keys :: h[k]
  }

  lemma RestrictStep(h: Request.Headers, keys: seq<string>, acc: Request.Headers)
    requires |keys| > 0 && keys[0] in h
    ensures acc[keys[0] := h[keys[0]]] + Restrict(h, keys[1..]) == acc + Restrict(h, keys)
  {
    assert forall k :: k in keys <==> k == keys[0] || k in keys[1..] by {
      assert keys == [keys[0]] + keys[1..];
    }
  }

  /** One `key: value` line moves the key into the header map. */
  lemma {:induction false} ReadHeadersFieldLine(k: string, v: string, rest: seq<LineRead>, acc: Request.Headers)
    requires Trimmed(k) && Trimmed(v) && ':' !in k
    ensures ReadHeaders([Line(Response.FieldText(k, v))] + rest, acc) == ReadHeaders(rest, acc[k := v])
  {
    ApplyFieldText(acc, k, v);
    FieldOfFieldText(k, v);
    assert ([Line(Response.FieldText(k, v))] + rest)[1..] == rest;
  }

  lemma {:induction false} ReadFieldLinesFrom(h: Request.Headers, order: seq<string>, acc: Request.Headers)
    requires forall i :: 0 <= i < |order| ==> order[i] in h
    requires WireSafe(h)
    ensures ReadHeaders(ReceivedFieldLines(h, order) + [Line("")], acc) == Ok(acc + Restrict(h, order))
    decreases |order|
  {
    if |order| == 0 {
      assert ReceivedFieldLines(h, order) + [Line("")] == [Line("")];
      assert IsBlank("");
      assert Restrict(h, order) == map[];
      assert acc + map[] == acc;
    } else {
      var k0 := order[0];
      assert Trimmed(k0) && ':' !in k0 && Trimmed(h[k0]);
      var tail := ReceivedFieldLines(h, order[1..]) + [Line("")];
      assert ReceivedFieldLines(h, order) + [Line("")] == [Line(Response.FieldText(k0, h[k0]))] + tail;
      ReadHeadersFieldLine(k0, h[k0], tail, acc);
      ReadFieldLinesFrom(h, order[1..], acc[k0 := h[k0]]);
      RestrictStep(h, order, acc);
    }
  }

  /** The custom headers of a response, written in any iteration order and
      read back by this parser, give back exactly the header map (for keys
      and values the header syntax can carry unchanged). */
  lemma {:induction false} ResponseHeadersReadBack(h: Request.Headers, order: seq<string>)
    requires Response.Enumerates(order, h)
    requires WireSafe(h)
    ensures ReadHeaders(ReceivedFieldLines(h, order) + [Line("")], map[]) == Ok(h)
  {
    ReadFieldLinesFrom(h, order, map[]);
    RestrictAll(h, order);
    assert map[] + h == h;
  }

  lemma RestrictAll(h: Request.Headers, keys: seq<string>)
    requires forall k :: k in h ==> k in keys
    ensures Restrict(h, keys) == h
  {
  }

  /** Each chunk `send_res_head` writes for a custom header is the line the
      reader receives, followed by CR LF. */
  lemma ReceivedAreWrittenLines(h: Request.Headers, order: seq<string>)
    requires forall i :: 0 <= i < |order| ==> order[i] in h
    ensures forall i :: 0 <= i < |order| ==>
              ReceivedFieldLines(h, order)[i].Line?
              && Response.FieldLines(h, order)[i] == Response.WriteLine(ReceivedFieldLines(h, order)[i].text)
  {
    ReceivedFieldLinesAt(h, order);
  }

  lemma {:induction false} ReceivedFieldLinesAt(h: Request.Headers, order: seq<string>)
    requires forall i :: 0 <= i < |order| ==> order[i] in h
    ensures forall i :: 0 <= i < |order| ==>
              ReceivedFieldLines(h, order)[i] == Line(Response.FieldText(order[i], h[order[i]]))
    decreases |order|
  {
    if |order| > 0 {
      ReceivedFieldLinesAt(h, order[1..]);
    }
  }

  /** The bytes of the custom header chunks, then anything else, as
      `BufRead::lines` splits them: one line per header, then the lines of
      what follows. */
  lemma {:induction false} ReceivedFromWire(h: Request.Headers, order: seq<string>, rest: string)
    requires forall i :: 0 <= i < |order| ==> order[i] in h
    requires NoLineFeeds(h)
    ensures Lines(LinesOf(Response.Concat(Response.FieldLines(h, order)) + rest))
         == ReceivedFieldLines(h, order) + Lines(LinesOf(rest))
    decreases |order|
  {
    if |order| == 0 {
      assert Response.FieldLines(h, order) == [];
      assert Response.Concat([]) + rest == rest;
    } else {
      var t0 := Response.FieldText(order[0], h[order[0]]);
      var tail := Response.Concat(Response.FieldLines(h, order[1..])) + rest;
      WireStep(h, order, rest);
      ReceivedFromWire(h, order[1..], rest);
      ReceivedLineThen(t0, tail, ReceivedFieldLines(h, order[1..]), Lines(LinesOf(rest)));
      assert ReceivedFieldLines(h, order) == [Line(t0)] + ReceivedFieldLines(h, order[1..]);
    }
  }

  /** The first custom header chunk is its field text and CR LF, and no
      line feed occurs before that CR LF. */
  lemma WireStep(h: Request.Headers, order: seq<string>, rest: string)
    requires |order| > 0 && forall i :: 0 <= i < |order| ==> order[i] in h
    requires NoLineFeeds(h)
    ensures var t0 := Response.FieldText(order[0], h[order[0]]);
            && '\n' !in t0
            && Response.Concat(Response.FieldLines(h, order)) + rest
               == t0 + "\r\n" + (Response.Concat(Response.FieldLines(h, order[1..])) + rest)
  {
    var fl := Response.FieldLines(h, order);
    assert fl == [fl[0]] + Response.FieldLines(h, order[1..]);
    assert Response.Concat(fl) == fl[0] + Response.Concat(fl[1..]);
  }

  /** One CR LF terminated line in front of text whose lines are known. */
  lemma ReceivedLineThen(t: string, tail: string, first: seq<LineRead>, later: seq<LineRead>)
    requires '\n' !in t
    requires Lines(LinesOf(tail)) == first + later
    ensures Lines(LinesOf(t + "\r\n" + tail)) == [Line(t)] + first + later
  {
    LinesOfLine(t, tail);
    LinesCons(t, LinesOf(tail));
  }

  lemma LinesCons(x: string, ls: seq<string>)
    ensures Lines([x] + ls) == [Line(x)] + Lines(ls)
  {
  }

  /** The custom header lines of a response, as bytes on the wire followed by
      the blank line, split by `BufRead::lines` and read by this parser, give
      back exactly the response's header map, in any iteration order. */
  lemma WrittenHeadersReadBack(h: Request.Headers, order: seq<string>)
    requires Response.Enumerates(order, h)
    requires WireSafe(h)
    ensures ReadHeaders(Lines(LinesOf(Response.Concat(Response.FieldLines(h, order)) + Response.WriteLine(""))), map[])
         == Ok(h)
  {
    ReceivedFromWire(h, order, Response.WriteLine(""));
    LinesOfLine("", "");
    assert "" + "\r\n" + "" == Response.WriteLine("");
    assert Lines([""] + LinesOf("")) == [Line("")];
    ResponseHeadersReadBack(h, order);
  }

  // ---------------------------------------------------------------------
  // The middleware chain
  // ---------------------------------------------------------------------

  /** How the middleware chain ended. */
  datatype ChainResult = Completed(req: Request.HttpRequest, res: Response.HttpResponse) | Stopped | Failed(err: IoError)

  /** Middleware in list order: `Pass` hands its pair to the next one, `Stop`
      ends the connection, `Fail` aborts it. */
  function RunChain(mws: seq<Middleware>, req: Request.HttpRequest, res: Response.HttpResponse): ChainResult
    decreases |mws|
  {
    if |mws| == 0 then Completed(req, res)
    else match mws[0](req, res)
      case Pass(q, s) => RunChain(mws[1..], q, s)
      case Stop => Stopped
      case Fail(e) => Failed(e)
  }

  /** Continue with more middleware only if the chain so far completed. */
  function Then(c: ChainResult, more: seq<Middleware>): ChainResult {
    match c
    case Completed(q, s) => RunChain(more, q, s)
    case Stopped => Stopped
    case Failed(e) => Failed(e)
  }

  /** The loop of `handle_stream` over `handler.middleware`. */
  method RunMiddleware(mws: seq<Middleware>, req0: Request.HttpRequest, res0: Response.HttpResponse)
    returns (r: ChainResult)
    ensures r == RunChain(mws, req0, res0)
  {
    var req, res := req0, res0;
    var i := 0;
    while i < |mws|
      invariant 0 <= i <= |mws|
      invariant RunChain(mws[i..], req, res) == RunChain(mws, req0, res0)
    {
      assert mws[i..][1..] == mws[i + 1..];
      match mws[i](req, res) {
        case Pass(q, s) =>
          req, res := q, s;
        case Stop =>
          return Stopped;
        case Fail(e) =>
          return Failed(e);
      }
      i := i + 1;
    }
    assert mws[i..] == [];
    r := Completed(req, res);
  }

  /** Running two lists back to back is running their concatenation: once
      a middleware stops or fails, nothing after it runs. */
  lemma {:induction false} RunChainAppend(a: seq<Middleware>, b: seq<Middleware>, req: Request.HttpRequest, res: Response.HttpResponse)
    ensures RunChain(a + b, req, res) == Then(RunChain(a, req, res), b)
    decreases |a|
  {
    if |a| == 0 {
      assert a + b == b;
    } else {
      assert (a + b)[0] == a[0];
      assert (a + b)[1..] == a[1..] + b;
      match a[0](req, res)
      case Pass(q, s) => RunChainAppend(a[1..], b, q, s);
      case Stop =>
      case Fail(e) =>
    }
  }

  /** `use_middleware` puts the new middleware last: it sees exactly the
      pair the earlier ones produced, and runs only if they all passed. */
  lemma UseMiddlewareRunsLast(app: App, f: Middleware, req: Request.HttpRequest, res: Response.HttpResponse)
    ensures RunChain(UseMiddleware(app, f).middleware, req, res) == Then(RunChain(app.middleware, req, res), [f])
  {
    RunChainAppend(app.middleware, [f], req, res);
  }

  // ---------------------------------------------------------------------
  // One connection
  // ---------------------------------------------------------------------

  /** How one connection ends. `Rejected` stands for the `unwrap` on a
      failed parse: the worker stops, nothing is dispatched or written. */
  datatype Connection =
    | Rejected(error: HttpError)
    | EndedByMiddleware
    | AbortedByMiddleware(err: IoError)
    | Dispatched(target: Target, req: Request.HttpRequest, res: Response.HttpResponse)

  /** `handle_stream`: parse, run the chain on a fresh response, dispatch on
      the method and path of the request the chain handed on. A parse
      failure rejects the connection with its error; otherwise the chain's
      outcome decides: a completed chain dispatches the pair its last
      middleware returned, `Stop` ends the connection and `Fail` aborts it
      with that middleware's error. */
  function HandleStream(server: Server, input: seq<LineRead>): (c: Connection)
    ensures c.Rejected? <==> ParseRequest(input).Err?
    ensures c.Rejected? ==> c.error == ParseRequest(input).error
    ensures c.Dispatched? ==> c.target == Resolve(server.handler, c.req.httpMethod, c.req.path)
    ensures ParseRequest(input).Ok? ==>
              var ch := RunChain(server.handler.middleware, ParseRequest(input).value, Response.New());
              && (ch.Completed? ==> c == Dispatched(Resolve(server.handler, ch.req.httpMethod, ch.req.path), ch.req, ch.res))
              && (ch.Stopped? ==> c == EndedByMiddleware)
              && (ch.Failed? ==> c == AbortedByMiddleware(ch.err))
  {
    match ParseRequest(input)
    case Err(e) => Rejected(e)
    case Ok(req) =>
      match RunChain(server.handler.middleware, req, Response.New())
      case Stopped => EndedByMiddleware
      case Failed(e) => AbortedByMiddleware(e)
      case Completed(q, s) => Dispatched(Resolve(server.handler, q.httpMethod, q.path), q, s)
  }

  /** With no middleware, any request that parses, whatever its header
      lines and the whitespace of its request line, dispatches to the
      handler registered last for its method and path, with the parsed
      request and a fresh response. */
  lemma HandleRegisteredRoute(regs: seq<Registration>, input: seq<LineRead>, h: HandlerId)
    requires ParseRequest(input).Ok?
    requires var q := ParseRequest(input).value; LastRegistered(regs, q.httpMethod, q.path) == Some(h)
    ensures var q := ParseRequest(input).value;
            HandleStream(Listen(RegisterAll(Router.New(), regs)), input)
            == Dispatched(Route(q.httpMethod, q.path, h), q, Response.New())
  {
    var q := ParseRequest(input).value;
    RegisterAllKeepsFallback(Router.New(), regs);
    RegisterAllLastWins(regs, q.httpMethod, q.path);
    HandleWithoutMiddleware(Listen(RegisterAll(Router.New(), regs)), input);
  }

  /** A request line of three words and an immediately following blank
      line parse to a request with no headers. */
  lemma {:induction false} ParseBareRequest(m: Method, p: string, v: string)
    requires IsWord(p) && IsWord(v)
    ensures ParseRequest([Line(Unwords([Literal(m), p, v])), Line("")]) == Ok(Request.New(m, p, v, map[]))
  {
    LiteralIsWord(m);
    assert IsBlank("");
    var input := [Line(Unwords([Literal(m), p, v])), Line("")];
    ReadHeadersBlankLine(input[1..], map[]);
    TokensOfUnwords([Literal(m), p, v]);
    ParseRoundTrip(m, Literal(m));
  }

  /** With no middleware, a parsed request goes straight to dispatch. */
  lemma HandleWithoutMiddleware(server: Server, input: seq<LineRead>)
    requires ParseRequest(input).Ok? && server.handler.middleware == []
    ensures var req := ParseRequest(input).value;
            HandleStream(server, input) == Dispatched(Resolve(server.handler, req.httpMethod, req.path), req, Response.New())
  {
  }

  /** An unknown method token ends the connection before any middleware or
      handler runs. */
  lemma HandleInvalidMethod(server: Server, first: string, rest: seq<LineRead>)
    requires forall m :: Literal(m) != TokenOr(Tokens(first), 0)
    ensures HandleStream(server, [Line(first)] + rest) == Rejected(InvalidMethod)
  {
    ParseRequestInvalidMethod(first, rest);
  }

  /** A middleware that stops or fails means no handler runs at all. */
  lemma HandleChainCutShort(server: Server, input: seq<LineRead>)
    requires ParseRequest(input).Ok?
    requires !RunChain(server.handler.middleware, ParseRequest(input).value, Response.New()).Completed?
    ensures !HandleStream(server, input).Dispatched?
  {
  }
}

=== FILE: statuses.dfy ===
/** Response status codes (web-server/src/status.rs): the standard HTTP
    status codes that the server can send, with the numeric code
    (`Into<u32>`) and the status-line text (`Display`). */
module Statuses {
  import opened Wrappers
  import Text

  datatype Status =
    | Continue
    | SwitchingProtocols
    | Processing
    | EarlyHints
    | OK
    | Created
    | Accepted
    | NonAuthoritativeInformation
    | NoContent
    | ResetContent
    | PartialContent
    | MultiStatus
    | AlreadyReported
    | IMUsed
    | MultipleChoices
    | MovedPermanently
    | Found
    | SeeOther
    | NotModified
    | TemporaryRedirect
    | PermanentRedirect
    | BadRequest
    | Unauthorized
    | PaymentRequired
    | Forbidden
    | NotFound
    | MethodNotAllowed
    | NotAcceptable
    | ProxyAuthenticationRequired
    | RequestTimeout
    | Conflict
    | Gone
    | LengthRequired
    | PreconditionFailed
    | ContentTooLarge
    | URITooLong
    | UnsupportedMediaType
    | RangeNotSatisfiable
    | ExpectationFailed
    | ImATeapot
    | MisdirectedRequest
    | UnprocessableContent
    | Locked
    | FailedDependency
    | TooEarly
    | UpgradeRequired
    | PreconditionRequired
    | TooManyRequests
    | RequestHeaderFieldsTooLarge
    | UnavailableForLegalReasons
    | InternalServerError
    | NotImplemented
    | BadGateway
    | ServiceUnavailable
    | GatewayTimeout
    | HTTPVersionNotSupported
    | VariantAlsoNegotiates
    | InsufficientStorage
    | LoopDetected
    | NotExtended
    | NetworkAuthenticationRequired

  /** `#[default]`: a fresh response is `200 OK`. */
  function Default(): (s: Status)
    ensures Code(s) == 200
    ensures Display(s) == "200 OK"
  {
    OK
  }

  /** `Into<u32>`: the numeric status code, always a three-digit code of
      one of the five classes of section 15 of RFC 9110. */
  function Code(s: Status): (c: nat)
    ensures 100 <= c <= 511
    ensures FromCode(c) == Some(s)
  {
    match s
    case Continue => 100
    case SwitchingProtocols => 101
    case Processing => 102
    case EarlyHints => 103
    case OK => 200
    case Created => 201
    case Accepted => 202
    case NonAuthoritativeInformation => 203
    case NoContent => 204
    case ResetContent => 205
    case PartialContent => 206
    case MultiStatus => 207
    case AlreadyReported => 208
    case IMUsed => 226
    case MultipleChoices => 300
    case MovedPermanently => 301
    case Found => 302
    case SeeOther => 303
    case NotModified => 304
    case TemporaryRedirect => 307
    case PermanentRedirect => 308
    case BadRequest => 400
    case Unauthorized => 401
    case PaymentRequired => 402
    case Forbidden => 403
    case NotFound => 404
    case MethodNotAllowed => 405
    case NotAcceptable => 406
    case ProxyAuthenticationRequired => 407
    case RequestTimeout => 408
    case Conflict => 409
    case Gone => 410
    case LengthRequired => 411
    case PreconditionFailed => 412
    case ContentTooLarge => 413
    case URITooLong => 414
    case UnsupportedMediaType => 415
    case RangeNotSatisfiable => 416
    case ExpectationFailed => 417
    case ImATeapot => 418
    case MisdirectedRequest => 421
    case UnprocessableContent => 422
    case Locked => 423
    case FailedDependency => 424
    case TooEarly => 425
    case UpgradeRequired => 426
    case PreconditionRequired => 428
    case TooManyRequests => 429
    case RequestHeaderFieldsTooLarge => 431
    case UnavailableForLegalReasons => 451
    case InternalServerError => 500
    case NotImplemented => 501
    case BadGateway => 502
    case ServiceUnavailable => 503
    case GatewayTimeout => 504
    case HTTPVersionNotSupported => 505
    case VariantAlsoNegotiates => 506
    case InsufficientStorage => 507
    case LoopDetected => 508
    case NotExtended => 510
    case NetworkAuthenticationRequired => 511
  }

  /** `Display`: the code and reason phrase as they appear after
      `HTTP/1.1 ` in a status line. */
  function Display(s: Status): string {
    match s
    case Continue => "100 Continue"
    case SwitchingProtocols => "101 Switching Protocols"
    case Processing => "102 Processing"
    case EarlyHints => "103 Early Hints"
    case OK => "200 OK"
    case Created => "201 Created"
    case Accepted => "202 Accepted"
    case NonAuthoritativeInformation => "203 Non-Authoritative Information"
    case NoContent => "204 No Content"
    case ResetContent => "205 Reset Content"
    case PartialContent => "206 Partial Content"
    case MultiStatus => "207 Multi-Status"
    case AlreadyReported => "208 Already Reported"
    case IMUsed => "226 IM Used"
    case MultipleChoices => "300 Multiple Choices"
    case MovedPermanently => "301 Moved Permanently"
    case Found => "302 Found"
    case SeeOther => "303 See Other"
    case NotModified => "304 Not Modified"
    case TemporaryRedirect => "307 Temporary Redirect"
    case PermanentRedirect => "308 Permanent Redirect"
    case BadRequest => "400 Bad Request"
    case Unauthorized => "401 Unauthorized"
    case PaymentRequired => "402 Payment Required"
    case Forbidden => "403 Forbidden"
    case NotFound => "404 Not Found"
    case MethodNotAllowed => "405 Method Not Allowed"
    case NotAcceptable => "406 Not Acceptable"
    case ProxyAuthenticationRequired => "407 Proxy Authentication Required"
    case RequestTimeout => "408 Request Timeout"
    case Conflict => "409 Conflict"
    case Gone => "410 Gone"
    case LengthRequired => "411 Length Required"
    case PreconditionFailed => "412 Precondition Failed"
    case ContentTooLarge => "413 Content Too Large"
    case URITooLong => "414 URI Too Long"
    case UnsupportedMediaType => "415 Unsupported Media Type"
    case RangeNotSatisfiable => "416 Range Not Satisfiable"
    case ExpectationFailed => "417 Expectation Failed"
    case ImATeapot => "418 I'm a teapot"
    case MisdirectedRequest => "421 Misdirected Request"
    case UnprocessableContent => "422 Unprocessable Content"
    case Locked => "423 Locked"
    case FailedDependency => "424 Failed Dependency"
    case TooEarly => "425 Too Early"
    case UpgradeRequired => "426 Upgrade Required"
    case PreconditionRequired => "428 Precondition Required"
    case TooManyRequests => "429 Too Many Requests"
    case RequestHeaderFieldsTooLarge => "431 Request Header Fields Too Large"
    case UnavailableForLegalReasons => "451 Unavailable For Legal Reasons"
    case InternalServerError => "500 Internal Server Error"
    case NotImplemented => "501 Not Implemented"
    case BadGateway => "502 Bad Gateway"
    case ServiceUnavailable => "503 Service Unavailable"
    case GatewayTimeout => "504 Gateway Timeout"
    case HTTPVersionNotSupported => "505 HTTP Version Not Supported"
    case VariantAlsoNegotiates => "506 Variant Also Negotiates"
    case InsufficientStorage => "507 Insufficient Storage"
    case LoopDetected => "508 Loop Detected"
    case NotExtended => "510 Not Extended"
    case NetworkAuthenticationRequired => "511 Network Authentication Required"
  }

  /** Number-to-variant lookup, one status class at a time: an
      independent inverse of `Code`. */
  function FromCode(c: int): Option<Status> {
    match c / 100
    case 1 => InformationalFromCode(c)
    case 2 => SuccessfulFromCode(c)
    case 3 => RedirectionFromCode(c)
    case 4 => ClientErrorFromCode(c)
    case 5 => ServerErrorFromCode(c)
    case _ => None
  }

  function InformationalFromCode(c: int): Option<Status> {
    match c
    case 100 => Some(Continue)
    case 101 => Some(SwitchingProtocols)
    case 102 => Some(Processing)
    case 103 => Some(EarlyHints)
    case _ => None
  }

  function SuccessfulFromCode(c: int): Option<Status> {
    match c
    case 200 => Some(OK)
    case 201 => Some(Created)
    case 202 => Some(Accepted)
    case 203 => Some(NonAuthoritativeInformation)
    case 204 => Some(NoContent)
    case 205 => Some(ResetContent)
    case 206 => Some(PartialContent)
    case 207 => Some(MultiStatus)
    case 208 => Some(AlreadyReported)
    case 226 => Some(IMUsed)
    case _ => None
  }

  function RedirectionFromCode(c: int): Option<Status> {
    match c
    case 300 => Some(MultipleChoices)
    case 301 => Some(MovedPermanently)
    case 302 => Some(Found)
    case 303 => Some(SeeOther)
    case 304 => Some(NotModified)
    case 307 => Some(TemporaryRedirect)
    case 308 => Some(PermanentRedirect)
    case _ => None
  }

  function ClientErrorFromCode(c: int): Option<Status> {
    match c
    case 400 => Some(BadRequest)
    case 401 => Some(Unauthorized)
    case 402 => Some(PaymentRequired)
    case 403 => Some(Forbidden)
    case 404 => Some(NotFound)
    case 405 => Some(MethodNotAllowed)
    case 406 => Some(NotAcceptable)
    case 407 => Some(ProxyAuthenticationRequired)
    case 408 => Some(RequestTimeout)
    case 409 => Some(Conflict)
    case 410 => Some(Gone)
    case 411 => Some(LengthRequired)
    case 412 => Some(PreconditionFailed)
    case 413 => Some(ContentTooLarge)
    case 414 => Some(URITooLong)
    case 415 => Some(UnsupportedMediaType)
    case 416 => Some(RangeNotSatisfiable)
    case 417 => Some(ExpectationFailed)
    case 418 => Some(ImATeapot)
    case 421 => Some(MisdirectedRequest)
    case 422 => Some(UnprocessableContent)
    case 423 => Some(Locked)
    case 424 => Some(FailedDependency)
    case 425 => Some(TooEarly)
    case 426 => Some(UpgradeRequired)
    case 428 => Some(PreconditionRequired)
    case 429 => Some(TooManyRequests)
    case 431 => Some(RequestHeaderFieldsTooLarge)
    case 451 => Some(UnavailableForLegalReasons)
    case _ => None
  }

  function ServerErrorFromCode(c: int): Option<Status> {
    match c
    case 500 => Some(InternalServerError)
    case 501 => Some(NotImplemented)
    case 502 => Some(BadGateway)
    case 503 => Some(ServiceUnavailable)
    case 504 => Some(GatewayTimeout)
    case 505 => Some(HTTPVersionNotSupported)
    case 506 => Some(VariantAlsoNegotiates)
    case 507 => Some(InsufficientStorage)
    case 508 => Some(LoopDetected)
    case 510 => Some(NotExtended)
    case 511 => Some(NetworkAuthenticationRequired)
    case _ => None
  }

  /** The code table is injective: no two variants share a code. */
  lemma CodeInjective(a: Status, b: Status)
    ensures Code(a) == Code(b) ==> a == b
  {
  }

  /** Spot values of the two tables. */
  lemma SpotValues()
    ensures Code(ImATeapot) == 418 && Display(ImATeapot) == "418 I'm a teapot"
    ensures Code(NotFound) == 404 && Display(NotFound) == "404 Not Found"
  {
  }

  /** Every status-line text is the decimal code, one space, and a
      non-empty reason phrase: the display table agrees with the code table
      for every variant. */
  lemma {:induction false} DisplayIsCodeThenReason(s: Status)
    ensures |Display(s)| > 4
    ensures Display(s)[..4] == Text.NatToString(Code(s)) + " "
  {
    match s
    case Continue => CodePrefixContinue();
    case SwitchingProtocols => CodePrefixSwitchingProtocols();
    case Processing => CodePrefixProcessing();
    case EarlyHints => CodePrefixEarlyHints();
    case OK => CodePrefixOK();
    case Created => CodePrefixCreated();
    case Accepted => CodePrefixAccepted();
    case NonAuthoritativeInformation => CodePrefixNonAuthoritativeInformation();
    case NoContent => CodePrefixNoContent();
    case ResetContent => CodePrefixResetContent();
    case PartialContent => CodePrefixPartialContent();
    case MultiStatus => CodePrefixMultiStatus();
    case AlreadyReported => CodePrefixAlreadyReported();
    case IMUsed => CodePrefixIMUsed();
    case MultipleChoices => CodePrefixMultipleChoices();
    case MovedPermanently => CodePrefixMovedPermanently();
    case Found => CodePrefixFound();
    case SeeOther => CodePrefixSeeOther();
    case NotModified => CodePrefixNotModified();
    case TemporaryRedirect => CodePrefixTemporaryRedirect();
    case PermanentRedirect => CodePrefixPermanentRedirect();
    case BadRequest => CodePrefixBadRequest();
    case Unauthorized => CodePrefixUnauthorized();
    case PaymentRequired => CodePrefixPaymentRequired();
    case Forbidden => CodePrefixForbidden();
    case NotFound => CodePrefixNotFound();
    case MethodNotAllowed => CodePrefixMethodNotAllowed();
    case NotAcceptable => CodePrefixNotAcceptable();
    case ProxyAuthenticationRequired => CodePrefixProxyAuthenticationRequired();
    case RequestTimeout => CodePrefixRequestTimeout();
    case Conflict => CodePrefixConflict();
    case Gone => CodePrefixGone();
    case LengthRequired => CodePrefixLengthRequired();
    case PreconditionFailed => CodePrefixPreconditionFailed();
    case ContentTooLarge => CodePrefixContentTooLarge();
    case URITooLong => CodePrefixURITooLong();
    case UnsupportedMediaType => CodePrefixUnsupportedMediaType();
    case RangeNotSatisfiable => CodePrefixRangeNotSatisfiable();
    case ExpectationFailed => CodePrefixExpectationFailed();
    case ImATeapot => CodePrefixImATeapot();
    case MisdirectedRequest => CodePrefixMisdirectedRequest();
    case UnprocessableContent => CodePrefixUnprocessableContent();
    case Locked => CodePrefixLocked();
    case FailedDependency => CodePrefixFailedDependency();
    case TooEarly => CodePrefixTooEarly();
    case UpgradeRequired => CodePrefixUpgradeRequired();
    case PreconditionRequired => CodePrefixPreconditionRequired();
    case TooManyRequests => CodePrefixTooManyRequests();
    case RequestHeaderFieldsTooLarge => CodePrefixRequestHeaderFieldsTooLarge();
    case UnavailableForLegalReasons => CodePrefixUnavailableForLegalReasons();
    case InternalServerError => CodePrefixInternalServerError();
    case NotImplemented => CodePrefixNotImplemented();
    case BadGateway => CodePrefixBadGateway();
    case ServiceUnavailable => CodePrefixServiceUnavailable();
    case GatewayTimeout => CodePrefixGatewayTimeout();
    case HTTPVersionNotSupported => CodePrefixHTTPVersionNotSupported();
    case VariantAlsoNegotiates => CodePrefixVariantAlsoNegotiates();
    case InsufficientStorage => CodePrefixInsufficientStorage();
    case LoopDetected => CodePrefixLoopDetected();
    case NotExtended => CodePrefixNotExtended();
    case NetworkAuthenticationRequired => CodePrefixNetworkAuthenticationRequired();
  }

  // One lemma per variant keeps each proof obligation small.

  lemma CodePrefixContinue()
    ensures |Display(Continue)| > 4 && Display(Continue)[..4] == Text.NatToString(Code(Continue)) + " "
  {
    assert Display(Continue)[..4] == "100 ";
    Text.NatToStringThreeDigits(100);
  }

  lemma CodePrefixSwitchingProtocols()
    ensures |Display(SwitchingProtocols)| > 4 && Display(SwitchingProtocols)[..4] == Text.NatToString(Code(SwitchingProtocols)) + " "
  {
    assert Display(SwitchingProtocols)[..4] == "101 ";
    Text.NatToStringThreeDigits(101);
  }

  lemma CodePrefixProcessing()
    ensures |Display(Processing)| > 4 && Display(Processing)[..4] == Text.NatToString(Code(Processing)) + " "
  {
    assert Display(Processing)[..4] == "102 ";
    Text.NatToStringThreeDigits(102);
  }

  lemma CodePrefixEarlyHints()
    ensures |Display(EarlyHints)| > 4 && Display(EarlyHints)[..4] == Text.NatToString(Code(EarlyHints)) + " "
  {
    assert Display(EarlyHints)[..4] == "103 ";
    Text.NatToStringThreeDigits(103);
  }

  lemma CodePrefixOK()
    ensures |Display(OK)| > 4 && Display(OK)[..4] == Text.NatToString(Code(OK)) + " "
  {
    assert Display(OK)[..4] == "200 ";
    Text.NatToStringThreeDigits(200);
  }

  lemma CodePrefixCreated()
    ensures |Display(Created)| > 4 && Display(Created)[..4] == Text.NatToString(Code(Created)) + " "
  {
    assert Display(Created)[..4] == "201 ";
    Text.NatToStringThreeDigits(201);
  }

  lemma CodePrefixAccepted()
    ensures |Display(Accepted)| > 4 && Display(Accepted)[..4] == Text.NatToString(Code(Accepted)) + " "
  {
    assert Display(Accepted)[..4] == "202 ";
    Text.NatToStringThreeDigits(202);
  }

  lemma CodePrefixNonAuthoritativeInformation()
    ensures |Display(NonAuthoritativeInformation)| > 4 && Display(NonAuthoritativeInformation)[..4] == Text.NatToString(Code(NonAuthoritativeInformation)) + " "
  {
    assert Display(NonAuthoritativeInformation)[..4] == "203 ";
    Text.NatToStringThreeDigits(203);
  }

  lemma CodePrefixNoContent()
    ensures |Display(NoContent)| > 4 && Display(NoContent)[..4] == Text.NatToString(Code(NoContent)) + " "
  {
    assert Display(NoContent)[..4] == "204 ";
    Text.NatToStringThreeDigits(204);
  }

  lemma CodePrefixResetContent()
    ensures |Display(ResetContent)| > 4 && Display(ResetContent)[..4] == Text.NatToString(Code(ResetContent)) + " "
  {
    assert Display(ResetContent)[..4] == "205 ";
    Text.NatToStringThreeDigits(205);
  }

  lemma CodePrefixPartialContent()
    ensures |Display(PartialContent)| > 4 && Display(PartialContent)[..4] == Text.NatToString(Code(PartialContent)) + " "
  {
    assert Display(PartialContent)[..4] == "206 ";
    Text.NatToStringThreeDigits(206);
  }

  lemma CodePrefixMultiStatus()
    ensures |Display(MultiStatus)| > 4 && Display(MultiStatus)[..4] == Text.NatToString(Code(MultiStatus)) + " "
  {
    assert Display(MultiStatus)[..4] == "207 ";
    Text.NatToStringThreeDigits(207);
  }

  lemma CodePrefixAlreadyReported()
    ensures |Display(AlreadyReported)| > 4 && Display(AlreadyReported)[..4] == Text.NatToString(Code(AlreadyReported)) + " "
  {
    assert Display(AlreadyReported)[..4] == "208 ";
    Text.NatToStringThreeDigits(208);
  }

  lemma CodePrefixIMUsed()
    ensures |Display(IMUsed)| > 4 && Display(IMUsed)[..4] == Text.NatToString(Code(IMUsed)) + " "
  {
    assert Display(IMUsed)[..4] == "226 ";
    Text.NatToStringThreeDigits(226);
  }

  lemma CodePrefixMultipleChoices()
    ensures |Display(MultipleChoices)| > 4 && Display(MultipleChoices)[..4] == Text.NatToString(Code(MultipleChoices)) + " "
  {
    assert Display(MultipleChoices)[..4] == "300 ";
    Text.NatToStringThreeDigits(300);
  }

  lemma CodePrefixMovedPermanently()
    ensures |Display(MovedPermanently)| > 4 && Display(MovedPermanently)[..4] == Text.NatToString(Code(MovedPermanently)) + " "
  {
    assert Display(MovedPermanently)[..4] == "301 ";
    Text.NatToStringThreeDigits(301);
  }

  lemma CodePrefixFound()
    ensures |Display(Found)| > 4 && Display(Found)[..4] == Text.NatToString(Code(Found)) + " "
  {
    assert Display(Found)[..4] == "302 ";
    Text.NatToStringThreeDigits(302);
  }

  lemma CodePrefixSeeOther()
    ensures |Display(SeeOther)| > 4 && Display(SeeOther)[..4] == Text.NatToString(Code(SeeOther)) + " "
  {
    assert Display(SeeOther)[..4] == "303 ";
    Text.NatToStringThreeDigits(303);
  }

  lemma CodePrefixNotModified()
    ensures |Display(NotModified)| > 4 && Display(NotModified)[..4] == Text.NatToString(Code(NotModified)) + " "
  {
    assert Display(NotModified)[..4] == "304 ";
    Text.NatToStringThreeDigits(304);
  }

  lemma CodePrefixTemporaryRedirect()
    ensures |Display(TemporaryRedirect)| > 4 && Display(TemporaryRedirect)[..4] == Text.NatToString(Code(TemporaryRedirect)) + " "
  {
    assert Display(TemporaryRedirect)[..4] == "307 ";
    Text.NatToStringThreeDigits(307);
  }

  lemma CodePrefixPermanentRedirect()
    ensures |Display(PermanentRedirect)| > 4 && Display(PermanentRedirect)[..4] == Text.NatToString(Code(PermanentRedirect)) + " "
  {
    assert Display(PermanentRedirect)[..4] == "308 ";
    Text.NatToStringThreeDigits(308);
  }

  lemma CodePrefixBadRequest()
    ensures |Display(BadRequest)| > 4 && Display(BadRequest)[..4] == Text.NatToString(Code(BadRequest)) + " "
  {
    assert Display(BadRequest)[..4] == "400 ";
    Text.NatToStringThreeDigits(400);
  }

  lemma CodePrefixUnauthorized()
    ensures |Display(Unauthorized)| > 4 && Display(Unauthorized)[..4] == Text.NatToString(Code(Unauthorized)) + " "
  {
    assert Display(Unauthorized)[..4] == "401 ";
    Text.NatToStringThreeDigits(401);
  }

  lemma CodePrefixPaymentRequired()
    ensures |Display(PaymentRequired)| > 4 && Display(PaymentRequired)[..4] == Text.NatToString(Code(PaymentRequired)) + " "
  {
    assert Display(PaymentRequired)[..4] == "402 ";
    Text.NatToStringThreeDigits(402);
  }

  lemma CodePrefixForbidden()
    ensures |Display(Forbidden)| > 4 && Display(Forbidden)[..4] == Text.NatToString(Code(Forbidden)) + " "
  {
    assert Display(Forbidden)[..4] == "403 ";
    Text.NatToStringThreeDigits(403);
  }

  lemma CodePrefixNotFound()
    ensures |Display(NotFound)| > 4 && Display(NotFound)[..4] == Text.NatToString(Code(NotFound)) + " "
  {
    assert Display(NotFound)[..4] == "404 ";
    Text.NatToStringThreeDigits(404);
  }

  lemma CodePrefixMethodNotAllowed()
    ensures |Display(MethodNotAllowed)| > 4 && Display(MethodNotAllowed)[..4] == Text.NatToString(Code(MethodNotAllowed)) + " "
  {
    assert Display(MethodNotAllowed)[..4] == "405 ";
    Text.NatToStringThreeDigits(405);
  }

  lemma CodePrefixNotAcceptable()
    ensures |Display(NotAcceptable)| > 4 && Display(NotAcceptable)[..4] == Text.NatToString(Code(NotAcceptable)) + " "
  {
    assert Display(NotAcceptable)[..4] == "406 ";
    Text.NatToStringThreeDigits(406);
  }

  lemma CodePrefixProxyAuthenticationRequired()
    ensures |Display(ProxyAuthenticationRequired)| > 4 && Display(ProxyAuthenticationRequired)[..4] == Text.NatToString(Code(ProxyAuthenticationRequired)) + " "
  {
    assert Display(ProxyAuthenticationRequired)[..4] == "407 ";
    Text.NatToStringThreeDigits(407);
  }

  lemma CodePrefixRequestTimeout()
    ensures |Display(RequestTimeout)| > 4 && Display(RequestTimeout)[..4] == Text.NatToString(Code(RequestTimeout)) + " "
  {
    assert Display(RequestTimeout)[..4] == "408 ";
    Text.NatToStringThreeDigits(408);
  }

  lemma CodePrefixConflict()
    ensures |Display(Conflict)| > 4 && Display(Conflict)[..4] == Text.NatToString(Code(Conflict)) + " "
  {
    assert Display(Conflict)[..4] == "409 ";
    Text.NatToStringThreeDigits(409);
  }

  lemma CodePrefixGone()
    ensures |Display(Gone)| > 4 && Display(Gone)[..4] == Text.NatToString(Code(Gone)) + " "
  {
    assert Display(Gone)[..4] == "410 ";
    Text.NatToStringThreeDigits(410);
  }

  lemma CodePrefixLengthRequired()
    ensures |Display(LengthRequired)| > 4 && Display(LengthRequired)[..4] == Text.NatToString(Code(LengthRequired)) + " "
  {
    assert Display(LengthRequired)[..4] == "411 ";
    Text.NatToStringThreeDigits(411);
  }

  lemma CodePrefixPreconditionFailed()
    ensures |Display(PreconditionFailed)| > 4 && Display(PreconditionFailed)[..4] == Text.NatToString(Code(PreconditionFailed)) + " "
  {
    assert Display(PreconditionFailed)[..4] == "412 ";
    Text.NatToStringThreeDigits(412);
  }

  lemma CodePrefixContentTooLarge()
    ensures |Display(ContentTooLarge)| > 4 && Display(ContentTooLarge)[..4] == Text.NatToString(Code(ContentTooLarge)) + " "
  {
    assert Display(ContentTooLarge)[..4] == "413 ";
    Text.NatToStringThreeDigits(413);
  }

  lemma CodePrefixURITooLong()
    ensures |Display(URITooLong)| > 4 && Display(URITooLong)[..4] == Text.NatToString(Code(URITooLong)) + " "
  {
    assert Display(URITooLong)[..4] == "414 ";
    Text.NatToStringThreeDigits(414);
  }

  lemma CodePrefixUnsupportedMediaType()
    ensures |Display(UnsupportedMediaType)| > 4 && Display(UnsupportedMediaType)[..4] == Text.NatToString(Code(UnsupportedMediaType)) + " "
  {
    assert Display(UnsupportedMediaType)[..4] == "415 ";
    Text.NatToStringThreeDigits(415);
  }

  lemma CodePrefixRangeNotSatisfiable()
    ensures |Display(RangeNotSatisfiable)| > 4 && Display(RangeNotSatisfiable)[..4] == Text.NatToString(Code(RangeNotSatisfiable)) + " "
  {
    assert Display(RangeNotSatisfiable)[..4] == "416 ";
    Text.NatToStringThreeDigits(416);
  }

  lemma CodePrefixExpectationFailed()
    ensures |Display(ExpectationFailed)| > 4 && Display(ExpectationFailed)[..4] == Text.NatToString(Code(ExpectationFailed)) + " "
  {
    assert Display(ExpectationFailed)[..4] == "417 ";
    Text.NatToStringThreeDigits(417);
  }

  lemma CodePrefixImATeapot()
    ensures |Display(ImATeapot)| > 4 && Display(ImATeapot)[..4] == Text.NatToString(Code(ImATeapot)) + " "
  {
    assert Display(ImATeapot)[..4] == "418 ";
    Text.NatToStringThreeDigits(418);
  }

  lemma CodePrefixMisdirectedRequest()
    ensures |Display(MisdirectedRequest)| > 4 && Display(MisdirectedRequest)[..4] == Text.NatToString(Code(MisdirectedRequest)) + " "
  {
    assert Display(MisdirectedRequest)[..4] == "421 ";
    Text.NatToStringThreeDigits(421);
  }

  lemma CodePrefixUnprocessableContent()
    ensures |Display(UnprocessableContent)| > 4 && Display(UnprocessableContent)[..4] == Text.NatToString(Code(UnprocessableContent)) + " "
  {
    assert Display(UnprocessableContent)[..4] == "422 ";
    Text.NatToStringThreeDigits(422);
  }

  lemma CodePrefixLocked()
    ensures |Display(Locked)| > 4 && Display(Locked)[..4] == Text.NatToString(Code(Locked)) + " "
  {
    assert Display(Locked)[..4] == "423 ";
    Text.NatToStringThreeDigits(423);
  }

  lemma CodePrefixFailedDependency()
    ensures |Display(FailedDependency)| > 4 && Display(FailedDependency)[..4] == Text.NatToString(Code(FailedDependency)) + " "
  {
    assert Display(FailedDependency)[..4] == "424 ";
    Text.NatToStringThreeDigits(424);
  }

  lemma CodePrefixTooEarly()
    ensures |Display(TooEarly)| > 4 && Display(TooEarly)[..4] == Text.NatToString(Code(TooEarly)) + " "
  {
    assert Display(TooEarly)[..4] == "425 ";
    Text.NatToStringThreeDigits(425);
  }

  lemma CodePrefixUpgradeRequired()
    ensures |Display(UpgradeRequired)| > 4 && Display(UpgradeRequired)[..4] == Text.NatToString(Code(UpgradeRequired)) + " "
  {
    assert Display(UpgradeRequired)[..4] == "426 ";
    Text.NatToStringThreeDigits(426);
  }

  lemma CodePrefixPreconditionRequired()
    ensures |Display(PreconditionRequired)| > 4 && Display(PreconditionRequired)[..4] == Text.NatToString(Code(PreconditionRequired)) + " "
  {
    assert Display(PreconditionRequired)[..4] == "428 ";
    Text.NatToStringThreeDigits(428);
  }

  lemma CodePrefixTooManyRequests()
    ensures |Display(TooManyRequests)| > 4 && Display(TooManyRequests)[..4] == Text.NatToString(Code(TooManyRequests)) + " "
  {
    assert Display(TooManyRequests)[..4] == "429 ";
    Text.NatToStringThreeDigits(429);
  }

  lemma CodePrefixRequestHeaderFieldsTooLarge()
    ensures |Display(RequestHeaderFieldsTooLarge)| > 4 && Display(RequestHeaderFieldsTooLarge)[..4] == Text.NatToString(Code(RequestHeaderFieldsTooLarge)) + " "
  {
    assert Display(RequestHeaderFieldsTooLarge)[..4] == "431 ";
    Text.NatToStringThreeDigits(431);
  }

  lemma CodePrefixUnavailableForLegalReasons()
    ensures |Display(UnavailableForLegalReasons)| > 4 && Display(UnavailableForLegalReasons)[..4] == Text.NatToString(Code(UnavailableForLegalReasons)) + " "
  {
    assert Display(UnavailableForLegalReasons)[..4] == "451 ";
    Text.NatToStringThreeDigits(451);
  }

  lemma CodePrefixInternalServerError()
    ensures |Display(InternalServerError)| > 4 && Display(InternalServerError)[..4] == Text.NatToString(Code(InternalServerError)) + " "
  {
    assert Display(InternalServerError)[..4] == "500 ";
    Text.NatToStringThreeDigits(500);
  }

  lemma CodePrefixNotImplemented()
    ensures |Display(NotImplemented)| > 4 && Display(NotImplemented)[..4] == Text.NatToString(Code(NotImplemented)) + " "
  {
    assert Display(NotImplemented)[..4] == "501 ";
    Text.NatToStringThreeDigits(501);
  }

  lemma CodePrefixBadGateway()
    ensures |Display(BadGateway)| > 4 && Display(BadGateway)[..4] == Text.NatToString(Code(BadGateway)) + " "
  {
    assert Display(BadGateway)[..4] == "502 ";
    Text.NatToStringThreeDigits(502);
  }

  lemma CodePrefixServiceUnavailable()
    ensures |Display(ServiceUnavailable)| > 4 && Display(ServiceUnavailable)[..4] == Text.NatToString(Code(ServiceUnavailable)) + " "
  {
    assert Display(ServiceUnavailable)[..4] == "503 ";
    Text.NatToStringThreeDigits(503);
  }

  lemma CodePrefixGatewayTimeout()
    ensures |Display(GatewayTimeout)| > 4 && Display(GatewayTimeout)[..4] == Text.NatToString(Code(GatewayTimeout)) + " "
  {
    assert Display(GatewayTimeout)[..4] == "504 ";
    Text.NatToStringThreeDigits(504);
  }

  lemma CodePrefixHTTPVersionNotSupported()
    ensures |Display(HTTPVersionNotSupported)| > 4 && Display(HTTPVersionNotSupported)[..4] == Text.NatToString(Code(HTTPVersionNotSupported)) + " "
  {
    assert Display(HTTPVersionNotSupported)[..4] == "505 ";
    Text.NatToStringThreeDigits(505);
  }

  lemma CodePrefixVariantAlsoNegotiates()
    ensures |Display(VariantAlsoNegotiates)| > 4 && Display(VariantAlsoNegotiates)[..4] == Text.NatToString(Code(VariantAlsoNegotiates)) + " "
  {
    assert Display(VariantAlsoNegotiates)[..4] == "506 ";
    Text.NatToStringThreeDigits(506);
  }

  lemma CodePrefixInsufficientStorage()
    ensures |Display(InsufficientStorage)| > 4 && Display(InsufficientStorage)[..4] == Text.NatToString(Code(InsufficientStorage)) + " "
  {
    assert Display(InsufficientStorage)[..4] == "507 ";
    Text.NatToStringThreeDigits(507);
  }

  lemma CodePrefixLoopDetected()
    ensures |Display(LoopDetected)| > 4 && Display(LoopDetected)[..4] == Text.NatToString(Code(LoopDetected)) + " "
  {
    assert Display(LoopDetected)[..4] == "508 ";
    Text.NatToStringThreeDigits(508);
  }

  lemma CodePrefixNotExtended()
    ensures |Display(NotExtended)| > 4 && Display(NotExtended)[..4] == Text.NatToString(Code(NotExtended)) + " "
  {
    assert Display(NotExtended)[..4] == "510 ";
    Text.NatToStringThreeDigits(510);
  }

  lemma CodePrefixNetworkAuthenticationRequired()
    ensures |Display(NetworkAuthenticationRequired)| > 4 && Display(NetworkAuthenticationRequired)[..4] == Text.NatToString(Code(NetworkAuthenticationRequired)) + " "
  {
    assert Display(NetworkAuthenticationRequired)[..4] == "511 ";
    Text.NatToStringThreeDigits(511);
  }
}

=== FILE: text.dfy ===
/** The handful of Rust string primitives the server relies on, as pure
    functions over `seq<char>`: `char::is_whitespace`, `str::trim`,
    `str::split_whitespace`, `str::split_once` and the decimal `Display` of
    an unsigned integer. Each is characterised by its contract, and the
    lemmas give the inverse that a reader of the wire format relies on. */
module Text {
  import opened Wrappers

  /** Rust's `char::is_whitespace`: the Unicode White_Space property. */
  predicate IsWhitespace(c: char) {
    || c == ' '
    || ('\t' <= c <= '\r')
    || c == '\U{0085}' || c == '\U{00A0}' || c == '\U{1680}'
    || ('\U{2000}' <= c <= '\U{200A}')
    || c == '\U{2028}' || c == '\U{2029}' || c == '\U{202F}' || c == '\U{205F}' || c == '\U{3000}'
  }

  predicate NoWhitespace(s: string) {
    forall i :: 0 <= i < |s| ==> !IsWhitespace(s[i])
  }

  predicate AllWhitespace(s: string) {
    forall i :: 0 <= i < |s| ==> IsWhitespace(s[i])
  }

  /** Neither end of `s` is whitespace: what `trim` leaves behind. */
  predicate Trimmed(s: string) {
    |s| == 0 || (!IsWhitespace(s[0]) && !IsWhitespace(s[|s| - 1]))
  }

  // ---------------------------------------------------------------------
  // str::trim
  // ---------------------------------------------------------------------

  /** `str::trim_start`: drop the longest all-whitespace prefix. */
  function TrimStart(s: string): (r: string)
    ensures |r| <= |s| && r == s[|s| - |r|..]
    ensures AllWhitespace(s[..|s| - |r|])
    ensures |r| == 0 || !IsWhitespace(r[0])
  {
    if |s| > 0 && IsWhitespace(s[0]) then TrimStart(s[1..]) else s
  }

  /** `str::trim_end`: drop the longest all-whitespace suffix. */
  function TrimEnd(s: string): (r: string)
    ensures |r| <= |s| && r == s[..|r|]
    ensures AllWhitespace(s[|r|..])
    ensures |r| == 0 || !IsWhitespace(r[|r| - 1])
  {
    if |s| > 0 && IsWhitespace(s[|s| - 1]) then
      var r := TrimEnd(s[..|s| - 1]);
      assert s[|r|..] == s[..|s| - 1][|r|..] + [s[|s| - 1]];
      r
    else s
  }

  /** `str::trim`: both ends. The result is empty exactly when `s` is all
      whitespace. */
  function Trim(s: string): (r: string)
    ensures Trimmed(r)
    ensures |r| <= |s|
    ensures r == "" <==> AllWhitespace(s)
  {
    var t := TrimStart(s);
    var r := TrimEnd(t);
    assert r == "" ==> AllWhitespace(s) by {
      if r == "" {
        assert t[|r|..] == t;
        assert |t| == 0;
        assert s[..|s|] == s;
      }
    }
    r
  }

  lemma {:induction false} TrimStartPadded(p: string, x: string)
    requires AllWhitespace(p)
    requires |x| == 0 || !IsWhitespace(x[0])
    ensures TrimStart(p + x) == x
    decreases |p|
  {
    var s := p + x;
    if |p| == 0 {
      assert s == x;
    } else {
      assert s[0] == p[0] && IsWhitespace(s[0]);
      assert s[1..] == p[1..] + x;
      assert TrimStart(s) == TrimStart(s[1..]);
      TrimStartPadded(p[1..], x);
    }
  }

  lemma {:induction false} TrimEndPadded(x: string, q: string)
    requires AllWhitespace(q)
    requires |x| == 0 || !IsWhitespace(x[|x| - 1])
    ensures TrimEnd(x + q) == x
    decreases |q|
  {
    var s := x + q;
    if |q| == 0 {
      assert s == x;
    } else {
      assert s[|s| - 1] == q[|q| - 1] && IsWhitespace(s[|s| - 1]);
      assert s[..|s| - 1] == x + q[..|q| - 1];
      assert TrimEnd(s) == TrimEnd(s[..|s| - 1]);
      TrimEndPadded(x, q[..|q| - 1]);
    }
  }

  /** Trimming strips exactly the whitespace padding around a trimmed core:
      `trim(p ++ x ++ q) == x`. */
  lemma {:induction false} TrimPadded(p: string, x: string, q: string)
    requires AllWhitespace(p) && AllWhitespace(q) && Trimmed(x)
    ensures Trim(p + x + q) == x
  {
    if |x| == 0 {
      assert p + x + q == p + q;
      assert AllWhitespace(p + q);
    } else {
      assert p + x + q == p + (x + q);
      TrimStartPadded(p, x + q);
      TrimEndPadded(x, q);
    }
  }

  /** `trim` is idempotent. */
  lemma TrimIdempotent(s: string)
    ensures Trim(Trim(s)) == Trim(s)
  {
    TrimPadded("", Trim(s), "");
    assert "" + Trim(s) + "" == Trim(s);
  }

  /** `trim` only removes characters: one absent from the input is absent
      from the result. */
  lemma TrimAvoids(s: string, c: char)
    requires c !in s
    ensures c !in Trim(s)
  {
  }

  /** A string without surrounding whitespace is its own trim. */
  lemma TrimOfTrimmed(x: string)
    requires Trimmed(x)
    ensures Trim(x) == x
  {
    TrimPadded("", x, "");
    assert "" + x + "" == x;
  }

  /** One leading space is trimmed away again. */
  lemma TrimOfSpaced(x: string)
    requires Trimmed(x)
    ensures Trim(" " + x) == x
  {
    TrimPadded(" ", x, "");
    assert " " + x + "" == " " + x;
  }

  // ---------------------------------------------------------------------
  // str::split_whitespace
  // ---------------------------------------------------------------------

  /** The longest whitespace-free prefix of `s`. */
  function Word(s: string): (w: string)
    ensures |w| <= |s| && w == s[..|w|]
    ensures NoWhitespace(w)
    ensures |w| == |s| || IsWhitespace(s[|w|])
  {
    if |s| == 0 || IsWhitespace(s[0]) then "" else [s[0]] + Word(s[1..])
  }

  /** `str::split_whitespace`: the maximal whitespace-free runs of `s`, in
      order; runs of several separators produce no empty tokens. */
  function Tokens(s: string): (ts: seq<string>)
    ensures forall i :: 0 <= i < |ts| ==> |ts[i]| > 0 && NoWhitespace(ts[i])
    decreases |s|
  {
    if |s| == 0 then []
    else if IsWhitespace(s[0]) then Tokens(s[1..])
    else
      var w := Word(s);
      assert |w| > 0;
      [w] + Tokens(s[|w|..])
  }

  /** The `i`-th whitespace token, or `""` when there are fewer tokens:
      `iter.next().unwrap_or_default()` after `i` earlier calls. */
  function TokenOr(ts: seq<string>, i: nat): (t: string)
    ensures i < |ts| ==> t == ts[i]
    ensures i >= |ts| ==> t == ""
  {
    if i < |ts| then ts[i] else ""
  }

  /** Words joined by single spaces: the single-space case of `Join` below
      (one space between words, nothing around them), the canonical shape of
      a request line. */
  function Unwords(ws: seq<string>): string {
    if |ws| == 0 then ""
    else if |ws| == 1 then ws[0]
    else ws[0] + " " + Unwords(ws[1..])
  }

  predicate IsWord(w: string) {
    |w| > 0 && NoWhitespace(w)
  }

  lemma {:induction false} WordOf(w: string, rest: string)
    requires NoWhitespace(w)
    requires |rest| == 0 || IsWhitespace(rest[0])
    ensures Word(w + rest) == w
    decreases |w|
  {
    var s := w + rest;
    if |w| == 0 {
      assert s == rest;
    } else {
      assert s[0] == w[0] && !IsWhitespace(s[0]);
      assert s[1..] == w[1..] + rest;
      assert Word(s) == [w[0]] + Word(s[1..]);
      WordOf(w[1..], rest);
      assert [w[0]] + w[1..] == w;
    }
  }

  /** Leading whitespace is skipped: it never contributes a token. */
  lemma {:induction false} TokensSkipWhitespace(p: string, x: string)
    requires AllWhitespace(p)
    ensures Tokens(p + x) == Tokens(x)
    decreases |p|
  {
    if |p| > 0 {
      var s := p + x;
      assert s[0] == p[0] && IsWhitespace(s[0]);
      assert Tokens(s) == Tokens(s[1..]);
      assert s[1..] == p[1..] + x;
      TokensSkipWhitespace(p[1..], x);
    } else {
      assert p + x == x;
    }
  }

  /** A word ended by whitespace or by the end of the text tokenizes as that
      word, then the tokens of what follows. */
  lemma TokensOfWordBefore(w: string, rest: string)
    requires IsWord(w)
    requires |rest| == 0 || IsWhitespace(rest[0])
    ensures Tokens(w + rest) == [w] + Tokens(rest)
  {
    var s := w + rest;
    WordOf(w, rest);
    assert !IsWhitespace(s[0]);
    assert Tokens(s) == [w] + Tokens(s[|w|..]);
    assert s[|w|..] == rest;
  }

  /** Splitting on whitespace inverts joining non-empty whitespace-free
      words with single spaces. */
  lemma {:induction false} TokensOfUnwords(ws: seq<string>)
    requires forall i :: 0 <= i < |ws| ==> IsWord(ws[i])
    ensures Tokens(Unwords(ws)) == ws
    decreases |ws|
  {
    if |ws| == 1 {
      TokensOfWordBefore(ws[0], "");
      assert ws[0] + "" == ws[0];
    } else if |ws| > 1 {
      TokensOfSpacedWord(ws[0], Unwords(ws[1..]));
      TokensOfUnwords(ws[1..]);
      assert ws == [ws[0]] + ws[1..];
    }
  }

  /** A word, a space, then more text: that word, then the tokens of the
      text. */
  lemma TokensOfSpacedWord(w: string, tail: string)
    requires IsWord(w)
    ensures Tokens(w + " " + tail) == [w] + Tokens(tail)
  {
    assert w + " " + tail == w + (" " + tail);
    TokensOfWordBefore(w, " " + tail);
    TokensSkipWhitespace(" ", tail);
  }

  /** Words interleaved with separators: `seps[0] + ws[0] + seps[1] + ...
      + ws[|ws|-1] + seps[|ws|]`, the general shape of a line of words. */
  function Join(ws: seq<string>, seps: seq<string>): string
    requires |seps| == |ws| + 1
    decreases |ws|
  {
    if |ws| == 0 then seps[0] else seps[0] + ws[0] + Join(ws[1..], seps[1..])
  }

  /** Separators that `split_whitespace` cuts at: all whitespace, and every
      separator between two words holds at least one character; the leading
      and trailing ones may be empty. */
  predicate Separates(seps: seq<string>) {
    && (forall i :: 0 <= i < |seps| ==> AllWhitespace(seps[i]))
    && (forall i :: 0 < i < |seps| - 1 ==> |seps[i]| > 0)
  }

  /** Splitting on whitespace gives back exactly the words of a line, whatever
      runs of whitespace separate them and whatever surrounds them. */
  lemma {:induction false} TokensOfJoin(ws: seq<string>, seps: seq<string>)
    requires |seps| == |ws| + 1 && Separates(seps)
    requires forall i :: 0 <= i < |ws| ==> IsWord(ws[i])
    ensures Tokens(Join(ws, seps)) == ws
    decreases |ws|
  {
    if |ws| == 0 {
      TokensSkipWhitespace(seps[0], "");
      assert seps[0] + "" == seps[0];
    } else {
      var rest := Join(ws[1..], seps[1..]);
      JoinStep(ws, seps);
      TokensSkipWhitespace(seps[0], ws[0] + rest);
      TokensOfWordBefore(ws[0], rest);
      assert Separates(seps[1..]);
      TokensOfJoin(ws[1..], seps[1..]);
      assert ws == [ws[0]] + ws[1..];
    }
  }

  /** Past the first separator and word, a joined line goes on with the
      next separator, so the first word ends at whitespace or at the end. */
  lemma JoinStep(ws: seq<string>, seps: seq<string>)
    requires |ws| > 0 && |seps| == |ws| + 1 && Separates(seps)
    ensures var rest := Join(ws[1..], seps[1..]);
            && Join(ws, seps) == seps[0] + (ws[0] + rest)
            && (|rest| == 0 || IsWhitespace(rest[0]))
  {
    var rest := Join(ws[1..], seps[1..]);
    if |ws| > 1 {
      assert rest == seps[1] + (ws[1] + Join(ws[2..], seps[2..]));
      assert |seps[1]| > 0 && AllWhitespace(seps[1]);
    } else {
      assert rest == seps[1];
    }
  }

  // ---------------------------------------------------------------------
  // str::split_once
  // ---------------------------------------------------------------------

  /** `str::split_once(sep)`: split at the FIRST occurrence of `sep`. */
  function SplitOnce(s: string, sep: char): (r: Option<(string, string)>)
    ensures r.None? <==> sep !in s
    ensures r.Some? ==> sep !in r.value.0 && s == r.value.0 + [sep] + r.value.1
  {
    if |s| == 0 then None
    else if s[0] == sep then Some(("", s[1..]))
    else
      match SplitOnce(s[1..], sep)
      case None => None
      case Some(kv) => Some(([s[0]] + kv.0, kv.1))
  }

  /** The split point is unique: any decomposition whose left part avoids
      the separator is the one `split_once` returns. */
  lemma {:induction false} SplitOnceAt(a: string, b: string, sep: char)
    requires sep !in a
    ensures SplitOnce(a + [sep] + b, sep) == Some((a, b))
    decreases |a|
  {
    var s := a + [sep] + b;
    if |a| == 0 {
      assert s == [sep] + b;
      assert s[1..] == b;
    } else {
      assert s[0] == a[0];
      assert s[1..] == a[1..] + [sep] + b;
      SplitOnceAt(a[1..], b, sep);
      assert [a[0]] + a[1..] == a;
    }
  }

  // ---------------------------------------------------------------------
  // BufRead::lines
  // ---------------------------------------------------------------------

  /** A line as `BufRead::lines` hands it over once its `\n` is gone: one
      carriage return just before the `\n` goes too. */
  function StripCr(a: string): (r: string)
    ensures a == r || a == r + "\r"
  {
    if |a| > 0 && a[|a| - 1] == '\r' then a[..|a| - 1] else a
  }

  /** `BufRead::lines` over the text `s`: the pieces between line feeds, each
      without its terminator (`\n` or `\r\n`); a last piece with no `\n`
      after it is a line when it is not empty. */
  function LinesOf(s: string): (ls: seq<string>)
    ensures forall i :: 0 <= i < |ls| ==> '\n' !in ls[i]
    decreases |s|
  {
    match SplitOnce(s, '\n')
    case None => if |s| == 0 then [] else [s]
    case Some(ab) => [StripCr(ab.0)] + LinesOf(ab.1)
  }

  /** A line written with a CR LF terminator is read back as that line. */
  lemma LinesOfLine(x: string, rest: string)
    requires '\n' !in x
    ensures LinesOf(x + "\r\n" + rest) == [x] + LinesOf(rest)
  {
    var a := x + "\r";
    assert x + "\r\n" + rest == a + ['\n'] + rest;
    SplitOnceAt(a, rest, '\n');
    assert a[..|a| - 1] == x;
  }

  // ---------------------------------------------------------------------
  // Decimal Display of an unsigned integer
  // ---------------------------------------------------------------------

  predicate IsDigit(c: char) {
    '0' <= c <= '9'
  }

  function DigitChar(d: nat): (c: char)
    requires d < 10
    ensures IsDigit(c) && c as int - '0' as int == d
  {
    (d + '0' as int) as char
  }

  /** Rust's `{}` formatting of a `usize`/`u32`: shortest decimal form,
      no sign, no leading zeros. */
  function NatToString(n: nat): (s: string)
    ensures |s| > 0 && forall i :: 0 <= i < |s| ==> IsDigit(s[i])
    ensures s[0] == '0' ==> n == 0
    decreases n
  {
    if n < 10 then [DigitChar(n)] else NatToString(n / 10) + [DigitChar(n % 10)]
  }

  function DigitValue(c: char): nat
    requires IsDigit(c)
  {
    c as int - '0' as int
  }

  /** Reads a string of decimal digits. */
  function ParseDigits(s: string): nat
    requires forall i :: 0 <= i < |s| ==> IsDigit(s[i])
  {
    if |s| == 0 then 0
    else ParseDigits(s[..|s| - 1]) * 10 + DigitValue(s[|s| - 1])
  }

  /** Reading the decimal form back yields the number. */
  lemma {:induction false} ParseNatToString(n: nat)
    ensures ParseDigits(NatToString(n)) == n
    decreases n
  {
    if n >= 10 {
      var s := NatToString(n);
      assert s[..|s| - 1] == NatToString(n / 10);
      ParseNatToString(n / 10);
    }
  }

  /** Decimal formatting is injective. */
  lemma NatToStringInjective(a: nat, b: nat)
    requires NatToString(a) == NatToString(b)
    ensures a == b
  {
    ParseNatToString(a);
    ParseNatToString(b);
  }

  /** A three-digit number prints as its hundreds, tens and units digits. */
  lemma NatToStringThreeDigits(n: nat)
    requires 100 <= n <= 999
    ensures NatToString(n) == [DigitChar(n / 100), DigitChar(n / 10 % 10), DigitChar(n % 10)]
  {
    assert NatToString(n / 10) == NatToString(n / 10 / 10) + [DigitChar(n / 10 % 10)];
    assert n / 10 / 10 == n / 100;
  }
}

=== FILE: wrappers.dfy ===
/** Failure-compatible value types shared by the whole model: the Rust
    `Option` and `Result` shapes the server code returns. */
module Wrappers {

  datatype Option<+T> = None | Some(value: T) {

    predicate IsFailure() {
      None?
    }

    function PropagateFailure<U>(): Option<U>
      requires None?
    {
      None
    }

    function Extract(): T
      requires Some?
    {
      value
    }
  }

  datatype Result<+T, +E> = Ok(value: T) | Err(error: E) {

    predicate IsFailure() {
      Err?
    }

    function PropagateFailure<U>(): Result<U, E>
      requires Err?
    {
      Err(error)
    }

    function Extract(): T
      requires Ok?
    {
      value
    }
  }
}
